=== FILE: README.md ===
# 2x image resampling engine, modelled in Dafny

This project models the resampling core of a small image viewer: four routines that
take a W x H RGB image and build a 2W x 2H one.

- **Hermite** ("pixel duplication"): output (x, y) is a copy of source (x / 2, y / 2).
- **Mitchell-Netravali**, **cubic B-spline** and **Lanczos**: one shared
  convolution driver. For every output pixel it:
  - cuts the source position x / 2.0 into a base index `ix` and an offset `fx`;
  - visits the square of taps dx, dy in [-R, R], where R is 2 for the cubics and `a` for Lanczos;
  - skips taps that fall outside the source;
  - adds k(dx - fx) * k(dy - fy) * channel to each channel sum;
  - converts each sum to `int` and clamps it into [0, 255].

Modules:

- `Pixels`: bytes, pixels, channels and images, as immutable sequences of rows.
- `Sampling`: `static_cast<int>` truncation, `std::clamp`, the (ix, fx) decomposition and the stored byte.
- `Kernels`: the three kernels, their parameters and defaults, and the `Filter` the driver runs.
- `Resampler`: the driver. Its functions define each output pixel as a bounded sum over taps. Its methods are the tap loops, which are proved to compute exactly those sums.
- `ResamplerLemmas`: what the driver guarantees and what it does not:
  - each output pixel reads only the source pixels in its window;
  - under the cubics, whose weights sum to one, flat regions stay flat wherever no weighted tap falls off the image, and at the border they can darken or brighten;
  - the Lanczos weights do not sum to one, so Lanczos dims a flat image even where no tap falls off;
  - the B-spline never leaves [0, 255] before clamping;
  - border taps are dropped without renormalising;
  - Mitchell-Netravali undershoots;
  - the Lanczos kernel as written is evaluated at its singular point.
- `Interpolation`: the four routines with their default arguments, and the duplication lemmas.

Arithmetic is over `real`, so every statement is about exact arithmetic.
Sine is a parameter of the Lanczos kernel. The lemmas about Lanczos's
weight sum take as hypotheses the five sine values they need: sin(pi/6) and
sin(5 pi/6) are 1/2, sin(pi/2) and sin(5 pi/2) are 1, and sin(3 pi/2) is -1
(`Kernels.SineAtSixths`). Nothing else is assumed about sine.
The model takes pi to be the real 3.141592653589793. The kernels use only
pi^2 t^2 > 0 for t != 0; the Lanczos weight sum also uses 9.8 < pi^2 < 9.9.

Two behaviours of the code are worth knowing:

- **A flat image does not stay flat at the border.** Interpolation.cpp:53
  skips out-of-bounds taps, and nothing rescales by the weights that remain.
  Each channel sum of a flat image is its value times the kept horizontal
  and the kept vertical weight sums (`ResamplerLemmas.FlatSums`). The
  cubics' weights sum to one at both sample offsets, so under them a flat
  image keeps its colour wherever no tap of non-zero weight falls off. That
  holds whenever x / 2 is at least 1 and x / 2 + 2 is less than the width,
  or x is even and x / 2 + 1 is less than the width, and likewise for y
  and the height (`ResamplerLemmas.FlatInteriorCubic`). This bound is
  sufficient, not tight. The only taps lost there are at distance 2 or
  5/2, where the cubics are 0. At the border the dropped taps change the
  colour. The B-spline darkens it
  (`ResamplerLemmas.BSplineSinglePixelDarkens`). Mitchell-Netravali, whose
  dropped taps can have negative weight, can brighten it: a flat 3 x 5
  image of grey 144 comes out as 149 at output (3, 4)
  (`ResamplerLemmas.MitchellBrightensBorder`).
- **Lanczos does not keep a flat image flat anywhere.** Its seven weights
  at offset 1/2 add up to 736 / (75 pi^2), about 0.9943, not 1
  (`Kernels.LanczosHalfSum`). With a = 3, a flat white image comes out as
  grey 252 at every output pixel with odd x and odd y, even when its whole
  window lies on the image (`ResamplerLemmas.LanczosDimsWhite`).
- **The Lanczos kernel has no value at 0.** Interpolation.cpp:119-127 has no
  x = 0 case, so its formula divides 0 by 0 there (see Findings).

The default arguments appear both in Interpolation.h:22 and Interpolation.h:39 and
again in Interpolation.cpp:23 and Interpolation.cpp:113. C++ forbids giving a
parameter a default argument a second time in the same scope, so a
conforming compiler rejects Interpolation.cpp as it stands once it includes
the header. The model takes the header's values, B = C = 1/3 and a = 3
(the definitions repeat the same values), as Dafny default parameter
values.

## Model

| member | source | states |
|---|---|---|
| `Sampling.Trunc` | Interpolation.cpp:43-44 | `static_cast<int>` truncates toward zero: a non-negative real v gives the integer r with r <= v < r + 1, a non-positive one the integer r with r - 1 < v <= r |
| `Sampling.Clamp` | Interpolation.cpp:61 | `std::clamp` lands in [lo, hi], leaves values already there unchanged, and sends values below lo to lo and values above hi to hi |
| `Sampling.SampleAt` | Interpolation.cpp:41-46 | the base index of output x is x div 2 (truncation is floor since x >= 0), the offset is 0 for even x and 1/2 for odd x, and base + offset = x / 2.0 |
| `Sampling.SampleInSource` | Interpolation.cpp:43-44 | the base index of every output column of a 2x magnification is a column of the source (0 <= ix < W) |
| `Sampling.Store` | Interpolation.cpp:61 | the stored channel is always a byte; a sum in [0, 256) is stored as its floor, anything below 1 as 0, anything from 255 up as 255 |
| `Sampling.StoreIsClampFloor` | Interpolation.cpp:61 | clamping the truncated sum equals clamping its floor, because negatives clamp to 0 either way |
| `Sampling.StoreKeepsBytes` | Interpolation.cpp:61 | a sum that is already a byte value is stored unchanged |
| `Sampling.StoreMonotone` | Interpolation.cpp:61 | a larger accumulated sum never gives a smaller stored byte |
| `Kernels.Mitchell` | Interpolation.cpp:29-36 | the Mitchell-Netravali kernel is 0 at every distance of 2 or more |
| `Kernels.MitchellEven` | Interpolation.cpp:29-30 | the Mitchell-Netravali kernel depends only on the distance, not its sign |
| `Kernels.MitchellJoins` | Interpolation.cpp:31-34 | for all B and C both cubics give B/6 at distance 1 and have equal derivatives there, and the outer cubic reaches 0 with zero derivative at distance 2 |
| `Kernels.MitchellCentreSum` | Interpolation.cpp:29-36 | for all B and C, k(0) + 2 k(1) = 1 |
| `Kernels.Poly3Step` | Interpolation.cpp:32-34 | for any cubic, a step h changes it by h times `Poly3Slope` plus h^2 times a term bounded for bounded h, so `Poly3Slope` is its derivative |
| `Kernels.MitchellNearPoly` | Interpolation.cpp:32 | the inner Mitchell-Netravali cubic is the cubic with coefficients 12 - 9B - 6C, -18 + 12B + 6C, 0 and 6 - 2B, over 6, so its slope is `Poly3Slope` of those coefficients over 6 |
| `Kernels.MitchellFarPoly` | Interpolation.cpp:34 | the outer Mitchell-Netravali cubic is the cubic with coefficients -B - 6C, 6B + 30C, -12B - 48C and 8B + 24C, over 6 |
| `Kernels.MitchellHalfGrid` | Interpolation.cpp:29-36 | the Mitchell-Netravali weights at every distance the driver uses, in closed form in B and C |
| `Kernels.BSpline` | Interpolation.cpp:74-81 | the cubic B-spline is never negative and is 0 at every distance of 2 or more |
| `Kernels.BSplineEven` | Interpolation.cpp:74-75 | the B-spline depends only on the distance, not its sign |
| `Kernels.BSplineHalfGrid` | Interpolation.cpp:74-81 | B-spline weights at the distances the driver uses: k(0) = 2/3, k(±1) = 1/6, k(±1/2) = 23/48, k(±3/2) = 1/48, k(±2) = k(-5/2) = 0 |
| `Kernels.PartitionOfUnity` | Interpolation.cpp:94-99 | at both sample offsets, 0 and 1/2, the five weights k(dx - fx) for dx in [-2, 2] add up to exactly 1, for the B-spline and for Mitchell-Netravali with any B and C |
| `Kernels.MitchellUnity` | Interpolation.cpp:29-54 | at offsets 0 and 1/2 the five Mitchell-Netravali weights k(dx - fx), dx in [-2, 2], add up to exactly 1 for every B and C |
| `Kernels.BSplineUnity` | Interpolation.cpp:74-99 | at offsets 0 and 1/2 the five B-spline weights k(dx - fx), dx in [-2, 2], add up to exactly 1 |
| `Kernels.WindowCoversSupport` | Interpolation.cpp:49-50 | every tap outside the square [-R, R] has weight 0 at both sample offsets, so the window drops no weight |
| `Kernels.LanczosAsWritten` | Interpolation.cpp:119-127 | the Lanczos formula as written, callable only where it does not divide 0 by 0; it is 0 at every distance of a or more |
| `Kernels.LanczosUndefinedAtCentre` | Interpolation.cpp:121-122 | the formula as written has a value at distance 0 only when a <= 0, i.e. for no window that has taps |
| `Kernels.Lanczos` | Interpolation.cpp:119-127 | the Lanczos kernel with the centre case supplied: 0 from distance a on, 1 at distance 0, and equal to the formula as written wherever that is defined |
| `Kernels.FilterOf` | Interpolation.cpp:49-54 | the driver's filter for a kernel has the kernel's window radius, and every tap at or beyond that radius weighs nothing |
| `Kernels.Weight` | Interpolation.cpp:54 | the weight of each kernel vanishes at and beyond the kernel's window radius |
| `Resampler.Resample` | Interpolation.cpp:39-40 | the convolution result is a well-formed image of exactly 2W x 2H pixels |
| `Resampler.Accumulate` | Interpolation.cpp:48-60 | a channel sum is 0 when the tap loops are empty (negative radius); it is also 0 for an image without pixels, a value `Resample` never asks for since it then builds no pixels |
| `Resampler.OutPixel` | Interpolation.cpp:61 | each channel of an output pixel is stored on its own: a sum in [0, 256) becomes its floor, a sum below 1 becomes 0 and a sum of 255 or more becomes 255 |
| `Resampler.AccumulateRow` | Interpolation.cpp:50-59 | the inner tap loop adds exactly the sum of the row's taps to each channel |
| `Resampler.AccumulatePixel` | Interpolation.cpp:48-60 | the tap loops leave in r, g, b exactly the sums over the whole window of taps |
| `Resampler.Convolve2x` | Interpolation.cpp:39-63 | the driver's double loop builds a 2W x 2H image whose every pixel is the stored window sum for that position |
| `ResamplerLemmas.FlatTap` | Interpolation.cpp:51-57 | in a row that lies on a flat image, a tap adds the pixel's channel value times its vertical weight times its kept horizontal weight: its kernel weight when it lands on the image, 0 when it is skipped |
| `ResamplerLemmas.ScaledKept` | Interpolation.cpp:50-58 | adding up the kept weights of taps -R .. hi each scaled by k gives k times their sum |
| `ResamplerLemmas.RowSumFlat` | Interpolation.cpp:50-58 | in a row that lies on a flat image, taps -R .. hi add the pixel's channel value times the row's vertical weight times each tap's kept horizontal weight, skipped taps adding 0 |
| `ResamplerLemmas.FlatRowInside` | Interpolation.cpp:50-58 | a whole row lying on a flat image adds the pixel's channel value times its vertical weight times the kept horizontal weight sum |
| `ResamplerLemmas.FlatRow` | Interpolation.cpp:50-58 | every row of taps of a flat image adds its kept vertical weight (0 for a row off the image) times the channel value times the kept horizontal weight sum |
| `ResamplerLemmas.WindowSumRows` | Interpolation.cpp:49-59 | when every row of the window adds its kept vertical weight times a common factor k, the rows -R .. hi sum to those kept weights each scaled by k |
| `ResamplerLemmas.FlatRows` | Interpolation.cpp:49-59 | all 2R + 1 rows of the window of a flat image add their kept vertical weight times the channel value times the kept horizontal weight sum |
| `ResamplerLemmas.WindowOfRows` | Interpolation.cpp:49-59 | when every row of the window adds its kept vertical weight times a common factor v kx, the whole window sums to v kx times the kept vertical weight sum |
| `ResamplerLemmas.FlatWindow` | Interpolation.cpp:49-59 | the whole window of a flat image sums to the channel value times the kept horizontal and the kept vertical weight sums, at every sample position |
| `ResamplerLemmas.FlatSums` | Interpolation.cpp:41-60 | every output pixel of a flat image, border included, has channel sums equal to the image's value times the kept horizontal and kept vertical weight sums; nothing rescales by the weights of skipped taps |
| `ResamplerLemmas.CoveredSum` | Interpolation.cpp:49-53 | when no tap of non-zero weight is skipped along an axis, the kept weights add up to the kernel's full weight sum |
| `ResamplerLemmas.CoveredFlat` | Interpolation.cpp:41-60 | each channel sum of an output pixel of a flat image that skips no tap of non-zero weight is the channel value times the full horizontal and vertical weight sums, whatever they add up to |
| `ResamplerLemmas.FlatInteriorSums` | Interpolation.cpp:49-59 | with weights summing to one, every channel sum of an output pixel of a flat image that skips no tap of non-zero weight equals the image's channel value |
| `ResamplerLemmas.FlatInterior` | Interpolation.cpp:49-61 | with weights summing to one, an output pixel of a flat image that skips no tap of non-zero weight is stored as exactly the image's colour |
| `ResamplerLemmas.CubicCovered` | Interpolation.cpp:49-54 | for the cubics, a sample whose base is at least 1 and at least three below the axis length, or at least two below it at offset 0, skips no tap of non-zero weight: the only taps that can fall off are at distance 2 or 5/2 |
| `ResamplerLemmas.FlatInteriorCubic` | Interpolation.cpp:94-106 | under Mitchell-Netravali (any B, C) and the B-spline, every output pixel of a flat image with 1 <= x / 2 and x / 2 + 2 < W (x / 2 + 1 < W for even x), and likewise for y and H, keeps its colour |
| `ResamplerLemmas.RightEdgeKept` | Interpolation.cpp:49-54 | at output column 3 of a 3-pixel-wide image a radius-2 filter keeps only the taps at distances -3/2, -1/2 and 1/2; taps -2 and 2 fall off |
| `ResamplerLemmas.MitchellRightEdge` | Interpolation.cpp:29-54 | with B = C = 1/3 the kept horizontal weights there are -5/144, 77/144 and 77/144 and add up to 149/144, more than one |
| `ResamplerLemmas.MitchellBottomRow` | Interpolation.cpp:29-54 | at output row 4 of a 5-pixel-high image no Mitchell-Netravali tap of non-zero weight is skipped, so the kept vertical weights add up to one |
| `ResamplerLemmas.MitchellBorderSums` | Interpolation.cpp:23-60 | with B = C = 1/3 every channel sum of a flat 3 x 5 image of grey 144 at output (3, 4) is 149 |
| `ResamplerLemmas.MitchellBrightensBorder` | Interpolation.cpp:23-65 | with B = C = 1/3 a flat 3 x 5 image of grey 144 is stored as grey 149 at output (3, 4): dropping a tap of negative weight brightens the border |
| `ResamplerLemmas.RowSumLocal` | Interpolation.cpp:50-58 | a row of taps reads only source pixels within the radius of (ix, iy): two same-size images that agree there give the same row sum |
| `ResamplerLemmas.WindowSumLocal` | Interpolation.cpp:49-59 | the rows of taps read only source pixels within the radius of (ix, iy) |
| `ResamplerLemmas.AccumulateLocal` | Interpolation.cpp:41-61 | output pixel (x, y) depends only on the source pixels within the radius of (x / 2, y / 2): two same-size images that agree there give it the same sums and the same colour |
| `ResamplerLemmas.TapBound` | Interpolation.cpp:51-57 | with non-negative weights a tap adds between 0 and 255 times the product of its two weights, and so never a negative amount |
| `ResamplerLemmas.RowSumBound` | Interpolation.cpp:50-58 | with non-negative weights the taps -R .. hi of a row add between 0 and 255 times the row's vertical weight times those taps' horizontal weight sum |
| `ResamplerLemmas.RowBound` | Interpolation.cpp:50-58 | with non-negative weights a whole row adds between 0 and 255 times its vertical weight times the full horizontal weight sum |
| `ResamplerLemmas.WindowSumBound` | Interpolation.cpp:49-59 | with non-negative weights the rows -R .. hi of a window sum to between 0 and 255 times the horizontal weight sum times those rows' vertical weight sum |
| `ResamplerLemmas.WindowStepBound` | Interpolation.cpp:49-59 | with non-negative weights, adding one more row keeps the window sum between 0 and 255 times the horizontal times the vertical weight sums so far |
| `ResamplerLemmas.NoOvershoot` | Interpolation.cpp:49-61 | for every image and output pixel, a filter with non-negative weights summing to one keeps every channel sum in [0, 255], border pixels included |
| `ResamplerLemmas.BSplineInRange` | Interpolation.cpp:74-106 | the B-spline's channel sums always lie in [0, 255] for every image and output pixel, so the clamp never acts and the stored byte is the floor of the sum |
| `ResamplerLemmas.SinglePixel` | Interpolation.cpp:49-58 | in a 1x1 image each output channel is the pixel times the two weights of its one readable tap, with no division by the total weight |
| `ResamplerLemmas.GreyPixel` | Interpolation.cpp:49-61 | the four outputs of a grey 1x1 image are the grey level scaled by the products of the weights at distances 0 and 1/2 |
| `ResamplerLemmas.BSplineSinglePixelDarkens` | Interpolation.cpp:74-106 | a white 1x1 image comes out of the B-spline as the 2x2 image 113, 81 / 81, 58: border taps are dropped and the rest not renormalised |
| `ResamplerLemmas.WhiteThroughBSplineWeights` | Interpolation.cpp:49-61 | any filter with the B-spline's weights 2/3 at 0 and 23/48 at 1/2 turns a white 1x1 image into 113, 81 / 81, 58 |
| `ResamplerLemmas.RowSumOutside` | Interpolation.cpp:51-53 | a row of taps above or below the source adds nothing |
| `ResamplerLemmas.WhiteThenBlack` | Interpolation.cpp:49-59 | in the row white, black, black, every channel sum of output pixel (3, 0) under any radius-2 filter is the single white tap k(-3/2) k(0) 255 |
| `ResamplerLemmas.MitchellUndershoots` | Interpolation.cpp:23-65 | with B = C = 1/3, in the row white, black, black output (3, 0) accumulates below 0 in every channel, and only the clamp stores it as black |
| `Kernels.LanczosHalfGrid` | Interpolation.cpp:119-127 | given sine's values at odd multiples of pi/6 and pi/2, the a = 3 Lanczos weights at distances ±1/2, ±3/2 and ±5/2 are 6/pi^2, -4/(3 pi^2) and 6/(25 pi^2), and 0 at -7/2 |
| `Kernels.LanczosHalfSum` | Interpolation.cpp:119-145 | with a = 3 the seven weights at offset 1/2 add up to 736 / (75 pi^2), strictly between 0.99 and 1, so the Lanczos filter's weights do not sum to one |
| `ResamplerLemmas.InsideCovered` | Interpolation.cpp:142-144 | a sample whose whole window lies on the axis skips no tap |
| `ResamplerLemmas.HalfOffsetFlat` | Interpolation.cpp:130-150 | at an output pixel with odd x and odd y of a flat image that skips no weighted tap, each channel sum is the channel value times the square of the weight sum at offset 1/2 |
| `ResamplerLemmas.WhiteAtHalfOffsets` | Interpolation.cpp:130-150 | any filter whose weights at offset 1/2 add up to 736 / (75 pi^2) turns a flat white image into channel sums in [252, 253) at such a pixel |
| `ResamplerLemmas.LanczosWhiteSums` | Interpolation.cpp:113-150 | with a = 3, every channel sum of a flat white image at an output pixel with odd x and odd y whose window lies on the image is in [252, 253), although no tap is skipped |
| `ResamplerLemmas.LanczosDimsWhite` | Interpolation.cpp:113-155 | with a = 3, a flat white image is stored as grey 252 at every output pixel with odd x and odd y whose window lies on the image: Lanczos does not keep flat regions flat |
| `ResamplerLemmas.LanczosAsWrittenDividesByZero` | Interpolation.cpp:139-144 | for a >= 1, the driver evaluates the kernel only where the formula as written is defined exactly for the output pixels with odd x and odd y; every other pixel reads a tap at distance 0 |
| `ResamplerLemmas.UnitCentre` | Interpolation.cpp:49-61 | a filter of weight 1 at distance 0 reproduces a 1x1 image at output (0, 0) |
| `ResamplerLemmas.LanczosSinglePixelCentre` | Interpolation.cpp:119-151 | with the centre case restored, Lanczos reproduces a 1x1 image at output (0, 0) |
| `Interpolation.Hermite` | Interpolation.cpp:7-21 | duplication yields a well-formed image of exactly 2W x 2H pixels |
| `Interpolation.HermiteBlock` | Interpolation.cpp:12-16 | source pixel (i, j) fills the whole 2x2 block at (2i, 2j), and every read is in bounds |
| `Interpolation.HermiteRoundTrip` | Interpolation.cpp:12-16 | keeping the top-left pixel of every 2x2 block of the duplicated image gives back the source image |
| `Interpolation.HermiteIsNearestConvolution` | Interpolation.cpp:12-16 | duplication equals the shared convolution driver run with a one-tap box filter |
| `Interpolation.HermiteInterpolation` | Interpolation.cpp:7-21 | the double loop builds a 2W x 2H image whose pixel (x, y) is source pixel (x / 2, y / 2) |
| `Interpolation.MitchellInterpolation` | Interpolation.cpp:23-65 | Mitchell-Netravali magnification, B = C = 1/3 by default, is the driver's 2W x 2H result with radius 2 |
| `Interpolation.BSplineInterpolation` | Interpolation.cpp:68-110 | B-spline magnification is the driver's 2W x 2H result with radius 2 |
| `Interpolation.LanczosInterpolation` | Interpolation.cpp:113-155 | Lanczos magnification, a = 3 by default, is the driver's 2W x 2H result with radius a, using the kernel with its centre case restored |

## Left out

- The GUI, its event handling, the selection rectangle and the compositing
  of the result into the view: user-interface plumbing over wxWidgets.
- The scale and rotate wrappers over `wxImage::Scale` and `wxImage::Rotate`:
  calls into a library whose code is not part of this model.
- IEEE-754 double rounding in the sums, in `std::pow` and in the kernels.
  The model uses exact real arithmetic, so no claim is made about bit-exact
  results. For example, in doubles a flat image can truncate to v - 1.
- `sin` is the host library's sine and is passed in. Only the five values
  in `Kernels.SineAtSixths` are ever assumed, so properties of Lanczos that
  need sine's zeros at the integers (its weights at offset 0 being 1, 0,
  ..., 0, for instance) are not stated.
- `width * 2` and `height * 2` can overflow `int` for huge images; dimensions are unbounded naturals here.
- Converting a NaN or out-of-range double to `int` is undefined behaviour in C++. The model's `Trunc` is total.
- The code does not validate zero-size input, and neither does the model. With W = 0 or H = 0 the loops simply do not run and the result is empty.
- Interpolation.LanczosInterpolation: models the routine with the centre
  case restored (see Findings). The routine as written computes 0 / 0 at
  the centre tap. In doubles that is NaN, and converting NaN to `int` is
  undefined, so there is no result to model.

## Findings

| source | as written | input that shows it | evidently intended | confidence | as-written member | corrected member |
|---|---|---|---|---|---|---|
| Interpolation.cpp:119-127 | for \|x\| < a the kernel is a sin(pi x) sin(pi x / a) / (pi^2 x^2), with no case for x = 0 | any non-empty image, output pixel (0, 0): its tap dx = dy = 0 lies on source pixel (0, 0) at distance 0, so the formula divides 0 by 0 (likewise every output pixel with even x or even y) | lanczos(0) = 1, the limit of the lobe at 0 | not executed | `ResamplerLemmas.LanczosAsWrittenDividesByZero` | `Kernels.Lanczos` |

=== FILE: interpolation.dfy ===
/** The four 2x magnification routines: pixel duplication ("Hermite") and
    the three convolution routines that share the driver of `Resampler`. */
module Interpolation {
  import opened Pixels
  import opened Sampling
  import opened Kernels
  import opened Resampler

  // ---------------------------------------------------------------------------
  // Pixel duplication

  /** The 2x magnification by duplication: output (x, y) is source
      (x / 2, y / 2). */
  function Hermite(img: Image): (r: Image)
    requires img.Valid()
    ensures r.Valid()
    ensures r.width == 2 * img.width && r.height == 2 * img.height
  {
    Image(2 * img.width, 2 * img.height,
          seq(2 * img.height, y requires 0 <= y < 2 * img.height =>
            seq(2 * img.width, x requires 0 <= x < 2 * img.width => img.At(x / 2, y / 2))))
  }

  /** Every source pixel (i, j) fills the 2x2 block whose top-left corner is
      (2i, 2j). */
  lemma HermiteBlock(img: Image, i: nat, j: nat, a: nat, b: nat)
    requires img.Valid() && InBounds(img.width, img.height, i, j)
    requires a < 2 && b < 2
    ensures InBounds(2 * img.width, 2 * img.height, 2 * i + a, 2 * j + b)
    ensures Hermite(img).At(2 * i + a, 2 * j + b) == img.At(i, j)
  {
  }

  /** Keeping the top-left pixel of every 2x2 block. */
  function Decimate(img: Image): (r: Image)
    requires img.Valid()
    ensures r.Valid()
    ensures r.width == img.width / 2 && r.height == img.height / 2
  {
    Image(img.width / 2, img.height / 2,
          seq(img.height / 2, j requires 0 <= j < img.height / 2 =>
            seq(img.width / 2, i requires 0 <= i < img.width / 2 => img.At(2 * i, 2 * j))))
  }

  /** Duplication loses nothing: decimating the magnified image gives back
      the source image. */
  lemma HermiteRoundTrip(img: Image)
    requires img.Valid()
    ensures Decimate(Hermite(img)) == img
  {
    var h := Hermite(img);
    var d := Decimate(h);
    assert |d.rows| == |img.rows|;
    forall j | 0 <= j < img.height
      ensures d.rows[j] == img.rows[j]
    {
      forall i | 0 <= i < img.width
        ensures d.rows[j][i] == img.rows[j][i]
      {
        HermiteBlock(img, i, j, 0, 0);
      }
    }
  }

  /** The duplicating filter: radius 0 and weight 1 on the half-open cell
      (-1, 0] that the offsets 0 and 1/2 fall into. */
  function Box(t: real): (r: real)
    ensures r == 0.0 || r == 1.0
  {
    if -1.0 < t <= 0.0 then 1.0 else 0.0
  }

  const Nearest: Filter := Filter(Box, 0)

  /** A single tap of weight one reproduces its source pixel. */
  lemma NearestPixel(img: Image, x: nat, y: nat)
    requires img.Valid() && InBounds(2 * img.width, 2 * img.height, x, y)
    ensures OutPixel(img, Nearest, x, y) == img.At(x / 2, y / 2)
  {
    var sx, sy := SampleAt(x), SampleAt(y);
    var p := img.At(x / 2, y / 2);
    forall c
      ensures Accumulate(img, Nearest, c, x, y) == ChannelOf(p, c) as real
    {
      assert Box(0 as real - sx.offset) == 1.0;
      assert Box(0 as real - sy.offset) == 1.0;
      assert Tap(img, Nearest, c, sx, sy, 0, 0) == ChannelOf(p, c) as real;
      assert RowSum(img, Nearest, c, sx, sy, 0, -1) == 0.0;
      assert WindowSum(img, Nearest, c, sx, sy, -1) == 0.0;
    }
    StoreKeepsBytes(p.red);
    StoreKeepsBytes(p.green);
    StoreKeepsBytes(p.blue);
    assert Accumulate(img, Nearest, Red, x, y) == p.red as real;
    assert Accumulate(img, Nearest, Green, x, y) == p.green as real;
    assert Accumulate(img, Nearest, Blue, x, y) == p.blue as real;
  }

  /** Duplication is the shared convolution driver run with the box filter:
      the one-tap window always reads the pixel (x / 2, y / 2). */
  lemma HermiteIsNearestConvolution(img: Image)
    requires img.Valid()
    ensures Hermite(img) == Resample(img, Nearest)
  {
    var h, r := Hermite(img), Resample(img, Nearest);
    forall y | 0 <= y < 2 * img.height
      ensures h.rows[y] == r.rows[y]
    {
      forall x | 0 <= x < 2 * img.width
        ensures h.rows[y][x] == r.rows[y][x]
      {
        NearestPixel(img, x, y);
      }
    }
  }

  /** The duplicating routine: a double loop that writes every output pixel
      once, from the source pixel it lies over. */
  method HermiteInterpolation(img: Image) returns (out: Image)
    requires img.Valid()
    ensures out.Valid()
    ensures out.width == 2 * img.width && out.height == 2 * img.height
    ensures forall x, y | InBounds(out.width, out.height, x, y) :: out.At(x, y) == img.At(x / 2, y / 2)
  {
    var rows: seq<seq<Pixel>> := [];
    var y := 0;
    while y < 2 * img.height
      invariant 0 <= y <= 2 * img.height
      invariant |rows| == y
      invariant forall j | 0 <= j < y :: |rows[j]| == 2 * img.width
      invariant forall i, j | 0 <= j < y && 0 <= i < 2 * img.width :: rows[j][i] == img.At(i / 2, j / 2)
    {
      var row: seq<Pixel> := [];
      var x := 0;
      while x < 2 * img.width
        invariant 0 <= x <= 2 * img.width
        invariant |row| == x
        invariant forall i | 0 <= i < x :: row[i] == img.At(i / 2, y / 2)
      {
        var srcX, srcY := x / 2, y / 2;
        row := row + [img.At(srcX, srcY)];
        x := x + 1;
      }
      rows := rows + [row];
      y := y + 1;
    }
    out := Image(2 * img.width, 2 * img.height, rows);
  }

  // ---------------------------------------------------------------------------
  // The convolution routines

  /** Mitchell-Netravali magnification, with B = C = 1/3 unless given. */
  method MitchellInterpolation(img: Image, b: real := DefaultB, c: real := DefaultC) returns (out: Image)
    requires img.Valid()
    ensures out.Valid()
    ensures out.width == 2 * img.width && out.height == 2 * img.height
    ensures out == Resample(img, FilterOf(MitchellKernel(b, c)))
  {
    out := Convolve2x(img, FilterOf(MitchellKernel(b, c)));
  }

  /** Cubic B-spline magnification. */
  method BSplineInterpolation(img: Image) returns (out: Image)
    requires img.Valid()
    ensures out.Valid()
    ensures out.width == 2 * img.width && out.height == 2 * img.height
    ensures out == Resample(img, FilterOf(BSplineKernel))
  {
    out := Convolve2x(img, FilterOf(BSplineKernel));
  }

  /** Lanczos magnification with window radius `a` (3 unless given), using
      the kernel with its value 1 at distance 0 restored; `sin` is the host
      sine. */
  method LanczosInterpolation(img: Image, sin: real -> real, a: int := DefaultA) returns (out: Image)
    requires img.Valid()
    ensures out.Valid()
    ensures out.width == 2 * img.width && out.height == 2 * img.height
    ensures out == Resample(img, FilterOf(LanczosKernel(a, sin)))
  {
    out := Convolve2x(img, FilterOf(LanczosKernel(a, sin)));
  }
}

=== FILE: kernels.dfy ===
/** The 1-D filter kernels of the resampling engine: Mitchell-Netravali,
    cubic B-spline and Lanczos, each a weight as a function of the distance
    (in source pixels) between a sample position and a source pixel. */
module Kernels {

  function Abs(x: real): real
  {
    if x < 0.0 then -x else x
  }

  // ---------------------------------------------------------------------------
  // Mitchell-Netravali

  /** Default shape parameters B = C = 1/3. */
  const DefaultB: real := 1.0 / 3.0
  const DefaultC: real := 1.0 / 3.0

  /** The cubic a3 t^3 + a2 t^2 + a1 t + a0. */
  function Poly3(a3: real, a2: real, a1: real, a0: real, t: real): real
  {
    a3 * t * t * t + a2 * t * t + a1 * t + a0
  }

  /** The derivative of `Poly3` at t. */
  function Poly3Slope(a3: real, a2: real, a1: real, t: real): real
  {
    3.0 * a3 * t * t + 2.0 * a2 * t + a1
  }

  /** The second-order part of a step of `Poly3` from t to t + h. */
  function Poly3Curve(a3: real, a2: real, t: real, h: real): real
  {
    3.0 * a3 * t + a3 * h + a2
  }

  /** Taylor's formula for a cubic: a step h changes it by h times its slope
      plus h^2 times a term bounded for bounded h, so `Poly3Slope` really is
      its derivative. */
  lemma Poly3Step(a3: real, a2: real, a1: real, a0: real, t: real, h: real)
    ensures Poly3(a3, a2, a1, a0, t + h) - Poly3(a3, a2, a1, a0, t)
         == h * Poly3Slope(a3, a2, a1, t) + h * h * Poly3Curve(a3, a2, t, h)
  {
    assert (t + h) * (t + h) == t * t + 2.0 * t * h + h * h;
    assert (t + h) * (t + h) * (t + h) == t * t * t + 3.0 * t * t * h + 3.0 * t * h * h + h * h * h;
  }

  /** The cubic used for distances t = |x| below 1. */
  function MitchellNear(b: real, c: real, t: real): real
  {
    ((12.0 - 9.0 * b - 6.0 * c) * t * t * t + (-18.0 + 12.0 * b + 6.0 * c) * t * t + (6.0 - 2.0 * b)) / 6.0
  }

  /** The cubic used for distances t = |x| in [1, 2). */
  function MitchellFar(b: real, c: real, t: real): real
  {
    ((-b - 6.0 * c) * t * t * t + (6.0 * b + 30.0 * c) * t * t + (-12.0 * b - 48.0 * c) * t + (8.0 * b + 24.0 * c)) / 6.0
  }

  /** `MitchellNear` is `Poly3` with the coefficients 12 - 9B - 6C,
      -18 + 12B + 6C, 0 and 6 - 2B, over 6. */
  lemma MitchellNearPoly(b: real, c: real, t: real)
    ensures MitchellNear(b, c, t) == Poly3(12.0 - 9.0 * b - 6.0 * c, -18.0 + 12.0 * b + 6.0 * c, 0.0, 6.0 - 2.0 * b, t) / 6.0
  {
  }

  /** `MitchellFar` is `Poly3` with the coefficients -B - 6C, 6B + 30C,
      -12B - 48C and 8B + 24C, over 6. */
  lemma MitchellFarPoly(b: real, c: real, t: real)
    ensures MitchellFar(b, c, t) == Poly3(-b - 6.0 * c, 6.0 * b + 30.0 * c, -12.0 * b - 48.0 * c, 8.0 * b + 24.0 * c, t) / 6.0
  {
  }

  /** The Mitchell-Netravali kernel with shape parameters `b` and `c`. */
  function Mitchell(b: real, c: real, x: real): (r: real)
    ensures Abs(x) >= 2.0 ==> r == 0.0
  {
    var t := Abs(x);
    if t < 1.0 then MitchellNear(b, c, t)
    else if t < 2.0 then MitchellFar(b, c, t)
    else 0.0
  }

  /** The kernel depends only on the distance, not on its sign. */
  lemma MitchellEven(b: real, c: real, x: real)
    ensures Mitchell(b, c, -x) == Mitchell(b, c, x)
  {
  }

  /** Whatever B and C are, the two cubics meet at |x| = 1 with the value
      B/6 and the same slope, and the outer one reaches 0 with zero slope at
      |x| = 2, so the kernel is continuous and smooth across its joins. */
  lemma MitchellJoins(b: real, c: real)
    ensures MitchellNear(b, c, 1.0) == b / 6.0 == MitchellFar(b, c, 1.0)
    ensures Mitchell(b, c, 1.0) == b / 6.0
    ensures MitchellFar(b, c, 2.0) == 0.0
    ensures MitchellNearSlope(b, c, 1.0) == MitchellFarSlope(b, c, 1.0)
    ensures MitchellFarSlope(b, c, 2.0) == 0.0
  {
  }

  /** Derivative of `MitchellNear` with respect to t: the derivative of its
      `Poly3` form (`MitchellNearPoly`, `Poly3Step`). */
  function MitchellNearSlope(b: real, c: real, t: real): real
  {
    Poly3Slope(12.0 - 9.0 * b - 6.0 * c, -18.0 + 12.0 * b + 6.0 * c, 0.0, t) / 6.0
  }

  /** Derivative of `MitchellFar` with respect to t: the derivative of its
      `Poly3` form (`MitchellFarPoly`, `Poly3Step`). */
  function MitchellFarSlope(b: real, c: real, t: real): real
  {
    Poly3Slope(-b - 6.0 * c, 6.0 * b + 30.0 * c, -12.0 * b - 48.0 * c, t) / 6.0
  }

  /** The weights at the integer distances add up to one: k(0) + 2 k(1) = 1. */
  lemma MitchellCentreSum(b: real, c: real)
    ensures Mitchell(b, c, 0.0) + 2.0 * Mitchell(b, c, 1.0) == 1.0
  {
  }

  // ---------------------------------------------------------------------------
  // Cubic B-spline

  function Cube(x: real): real
  {
    x * x * x
  }

  /** The cubic B-spline kernel. */
  function BSpline(x: real): (r: real)
    ensures r >= 0.0
    ensures Abs(x) >= 2.0 ==> r == 0.0
  {
    var t := Abs(x);
    if t < 1.0 then
      BSplineNearNonNegative(t);
      (2.0 / 3.0) + 0.5 * t * t * t - t * t
    else if t < 2.0 then
      CubeNonNegative(2.0 - t);
      (1.0 / 6.0) * Cube(2.0 - t)
    else 0.0
  }

  lemma CubeNonNegative(x: real)
    requires x >= 0.0
    ensures Cube(x) >= 0.0
  {
  }

  /** On [0, 1) the inner cubic stays above 1/6 > 0: its distance from 1/6
      factors as (1 - t)(1 + t - t^2) / 2. */
  lemma BSplineNearNonNegative(t: real)
    requires 0.0 <= t < 1.0
    ensures (2.0 / 3.0) + 0.5 * t * t * t - t * t >= 1.0 / 6.0
  {
    var p := (2.0 / 3.0) + 0.5 * t * t * t - t * t;
    assert p - 1.0 / 6.0 == (1.0 - t) * (1.0 + t - t * t) / 2.0;
    assert t * t <= t;
    assert 1.0 + t - t * t >= 1.0;
    MulNonNegative(1.0 - t, 1.0 + t - t * t);
  }

  lemma MulNonNegative(x: real, y: real)
    requires x >= 0.0 && y >= 0.0
    ensures x * y >= 0.0
  {
  }

  /** The kernel depends only on the distance, not on its sign. */
  lemma BSplineEven(x: real)
    ensures BSpline(-x) == BSpline(x)
  {
  }

  // ---------------------------------------------------------------------------
  // Lanczos

  /** Default window radius a = 3. */
  const DefaultA: int := 3

  /** `M_PI`, taken as the real 3.141592653589793. The kernels use only
      pi^2 t^2 > 0; the Lanczos weight sum below also uses 9.8 < pi^2 < 9.9. */
  const Pi: real := 3.141592653589793

  /** The windowed-sinc lobe a sin(pi t) sin(pi t / a) / (pi^2 t^2), for a
      distance t that is neither 0 nor outside the window. `sin` is the host
      library's sine, about which nothing is assumed. */
  function LanczosLobe(a: int, sin: real -> real, t: real): real
    requires 0.0 < t < a as real
  {
    assert Pi * Pi * t * t > 0.0 by { PositiveSquare(Pi * t); }
    (a as real * sin(Pi * t) * sin(Pi * t / a as real)) / (Pi * Pi * t * t)
  }

  lemma PositiveSquare(x: real)
    requires x > 0.0
    ensures x * x > 0.0
  {
  }

  /** The distances at which the kernel as written can be evaluated: inside
      the window the formula divides by pi^2 x^2, so x = 0 is excluded. */
  predicate LanczosDefined(a: int, x: real)
  {
    Abs(x) < a as real ==> x != 0.0
  }

  /** The Lanczos kernel exactly as written: no case for x = 0, where the
      formula would compute 0 / 0. */
  function LanczosAsWritten(a: int, sin: real -> real, x: real): (r: real)
    requires LanczosDefined(a, x)
    ensures Abs(x) >= a as real ==> r == 0.0
  {
    var t := Abs(x);
    if t < a as real then LanczosLobe(a, sin, t) else 0.0
  }

  /** The Lanczos kernel with the missing centre case supplied: the value at
      0 is the limit 1 of the lobe; everywhere else it is the kernel as
      written. */
  function Lanczos(a: int, sin: real -> real, x: real): (r: real)
    ensures Abs(x) >= a as real ==> r == 0.0
    ensures 1 <= a && x == 0.0 ==> r == 1.0
    ensures LanczosDefined(a, x) ==> r == LanczosAsWritten(a, sin, x)
  {
    var t := Abs(x);
    if t < a as real then (if t == 0.0 then 1.0 else LanczosLobe(a, sin, t)) else 0.0
  }

  /** The kernel as written cannot be evaluated at the centre of any window
      of radius at least one. */
  lemma LanczosUndefinedAtCentre(a: int)
    ensures LanczosDefined(a, 0.0) <==> a <= 0
  {
  }

  // ---------------------------------------------------------------------------
  // Kernels as the resampler sees them

  /** A kernel together with its parameters. */
  datatype Kernel =
    | MitchellKernel(b: real, c: real)
    | BSplineKernel
    | LanczosKernel(a: int, sin: real -> real)

  /** The weight `k` gives to a source pixel at signed distance `x`. */
  function Weight(k: Kernel, x: real): (r: real)
    ensures Abs(x) >= Radius(k) as real ==> r == 0.0
  {
    match k
    case MitchellKernel(b, c) => Mitchell(b, c, x)
    case BSplineKernel => BSpline(x)
    case LanczosKernel(a, sin) => Lanczos(a, sin, x)
  }

  /** Half-width of the square of taps the resampler visits for `k`: 2 for
      the cubics, a for Lanczos. */
  function Radius(k: Kernel): int
  {
    match k
    case MitchellKernel(_, _) => 2
    case BSplineKernel => 2
    case LanczosKernel(a, _) => a
  }

  /** What the shared driver needs of a kernel: its weight function and the
      half-width of its square of taps. */
  datatype Filter = Filter(weight: real -> real, radius: int)

  /** The filter the driver runs for kernel `k`: a tap whose distance
      reaches the window's half-width weighs nothing, so the square of taps
      holds the kernel's whole support. */
  function FilterOf(k: Kernel): (f: Filter)
    ensures f.radius == Radius(k)
    ensures forall x :: Abs(x) >= f.radius as real ==> f.weight(x) == 0.0
  {
    Filter(x => Weight(k, x), Radius(k))
  }

  /** Sum of the weights a filter gives to taps d = -radius .. hi at sample
      offset `off`, i.e. of weight(d - off). */
  function WeightSum(f: Filter, off: real, hi: int): real
    decreases hi + f.radius
  {
    if hi < -f.radius then 0.0 else WeightSum(f, off, hi - 1) + f.weight(hi as real - off)
  }

  /** The filter's full row of weights adds up to one at both sample
      offsets the 2x driver produces. */
  predicate UnitSums(f: Filter)
  {
    WeightSum(f, 0.0, f.radius) == 1.0 && WeightSum(f, 0.5, f.radius) == 1.0
  }

  /** The kernels whose weights form a partition of unity on the half-grid. */
  predicate Cubic(k: Kernel)
  {
    k.MitchellKernel? || k.BSplineKernel?
  }

  /** The five weights of a cubic kernel at sample offset `off`. */
  lemma FiveWeights(k: Kernel, off: real)
    requires Cubic(k)
    ensures WeightSum(FilterOf(k), off, 2)
         == Weight(k, -2.0 - off) + Weight(k, -1.0 - off) + Weight(k, 0.0 - off) + Weight(k, 1.0 - off) + Weight(k, 2.0 - off)
  {
    var f := FilterOf(k);
    assert WeightSum(f, off, -3) == 0.0;
    assert WeightSum(f, off, -2) == Weight(k, -2.0 - off);
    assert WeightSum(f, off, -1) == WeightSum(f, off, -2) + Weight(k, -1.0 - off);
    assert WeightSum(f, off, 0) == WeightSum(f, off, -1) + Weight(k, 0.0 - off);
    assert WeightSum(f, off, 1) == WeightSum(f, off, 0) + Weight(k, 1.0 - off);
  }

  /** Partition of unity: at both sample offsets the resampler produces, 0
      and 1/2, the five weights of a cubic kernel add up to exactly one, for
      every choice of the Mitchell-Netravali parameters. */
  lemma PartitionOfUnity(k: Kernel)
    requires Cubic(k)
    ensures UnitSums(FilterOf(k))
  {
    if k.MitchellKernel? {
      MitchellUnity(k.b, k.c);
    } else {
      BSplineUnity();
    }
  }

  /** The five Mitchell-Netravali weights add up to one at offsets 0 and 1/2. */
  lemma MitchellUnity(b: real, c: real)
    ensures UnitSums(FilterOf(MitchellKernel(b, c)))
  {
    var k := MitchellKernel(b, c);
    FiveWeights(k, 0.0);
    FiveWeights(k, 0.5);
    MitchellHalfGrid(b, c);
    assert Weight(k, -2.0 - 0.5) == Mitchell(b, c, -2.5);
    assert Weight(k, -1.0 - 0.5) == Mitchell(b, c, -1.5);
    assert Weight(k, 0.0 - 0.5) == Mitchell(b, c, -0.5);
    assert Weight(k, 1.0 - 0.5) == Mitchell(b, c, 0.5);
    assert Weight(k, 2.0 - 0.5) == Mitchell(b, c, 1.5);
  }

  /** The five B-spline weights add up to one at offsets 0 and 1/2. */
  lemma BSplineUnity()
    ensures UnitSums(FilterOf(BSplineKernel))
  {
    var k := BSplineKernel;
    FiveWeights(k, 0.0);
    FiveWeights(k, 0.5);
    BSplineHalfGrid();
    assert Weight(k, -2.0 - 0.5) == BSpline(-2.5);
    assert Weight(k, -1.0 - 0.5) == BSpline(-1.5);
    assert Weight(k, 0.0 - 0.5) == BSpline(-0.5);
    assert Weight(k, 1.0 - 0.5) == BSpline(0.5);
    assert Weight(k, 2.0 - 0.5) == BSpline(1.5);
  }

  /** The Mitchell-Netravali weights on the two grids the driver uses. */
  lemma MitchellHalfGrid(b: real, c: real)
    ensures Mitchell(b, c, -2.0) == 0.0 && Mitchell(b, c, 2.0) == 0.0
    ensures Mitchell(b, c, -1.0) == b / 6.0 && Mitchell(b, c, 1.0) == b / 6.0
    ensures Mitchell(b, c, 0.0) == (6.0 - 2.0 * b) / 6.0
    ensures Mitchell(b, c, -2.5) == 0.0
    ensures Mitchell(b, c, -1.5) == (b - 6.0 * c) / 48.0 && Mitchell(b, c, 1.5) == (b - 6.0 * c) / 48.0
    ensures Mitchell(b, c, -0.5) == (24.0 - b + 6.0 * c) / 48.0 && Mitchell(b, c, 0.5) == (24.0 - b + 6.0 * c) / 48.0
  {
  }

  /** The B-spline weights on the two grids the driver uses. */
  lemma BSplineHalfGrid()
    ensures BSpline(-2.0) == 0.0 && BSpline(2.0) == 0.0
    ensures BSpline(-1.0) == 1.0 / 6.0 && BSpline(1.0) == 1.0 / 6.0
    ensures BSpline(0.0) == 2.0 / 3.0
    ensures BSpline(-2.5) == 0.0
    ensures BSpline(-1.5) == 1.0 / 48.0 && BSpline(1.5) == 1.0 / 48.0
    ensures BSpline(-0.5) == 23.0 / 48.0 && BSpline(0.5) == 23.0 / 48.0
  {
    assert Abs(-1.5) == 1.5 && Abs(-0.5) == 0.5 && Abs(-1.0) == 1.0;
    assert Cube(1.0) == 1.0 && Cube(0.5) == 0.125;
  }

  /** The square of taps covers the kernel's support: a tap one step or more
      outside the window has weight zero at both sample offsets, so the
      window loses nothing. */
  lemma WindowCoversSupport(k: Kernel, off: real, d: int)
    requires off == 0.0 || off == 0.5
    requires d < -Radius(k) || Radius(k) < d
    ensures Weight(k, d as real - off) == 0.0
  {
  }

  /** The sine values the a = 3 Lanczos weights at offset 1/2 read:
      sin(pi/2) = 1, sin(pi/6) = 1/2, sin(3 pi/2) = -1, sin(5 pi/2) = 1 and
      sin(5 pi/6) = 1/2. They are facts about sine, stated for `sin`. */
  predicate SineAtSixths(sin: real -> real)
  {
    sin(Pi * 0.5) == 1.0 && sin(Pi * 0.5 / 3.0) == 0.5 && sin(Pi * 1.5) == -1.0
    && sin(Pi * 2.5) == 1.0 && sin(Pi * 2.5 / 3.0) == 0.5
  }

  /** The a = 3 Lanczos weights at the distances offset 1/2 produces:
      6 / pi^2 at 1/2, -4 / (3 pi^2) at 3/2, 6 / (25 pi^2) at 5/2, 0 at 7/2. */
  lemma LanczosHalfGrid(sin: real -> real)
    requires SineAtSixths(sin)
    ensures Lanczos(3, sin, 0.5) == 6.0 / (Pi * Pi) && Lanczos(3, sin, -0.5) == 6.0 / (Pi * Pi)
    ensures Lanczos(3, sin, 1.5) == -4.0 / (3.0 * Pi * Pi) && Lanczos(3, sin, -1.5) == -4.0 / (3.0 * Pi * Pi)
    ensures Lanczos(3, sin, 2.5) == 6.0 / (25.0 * Pi * Pi) && Lanczos(3, sin, -2.5) == 6.0 / (25.0 * Pi * Pi)
    ensures Lanczos(3, sin, -3.5) == 0.0
  {
    assert Pi * 1.5 / 3.0 == Pi * 0.5;
    assert Abs(-0.5) == 0.5 && Abs(-1.5) == 1.5 && Abs(-2.5) == 2.5;
  }

  /** Lanczos is no partition of unity: with a = 3 its seven weights at
      offset 1/2 add up to 736 / (75 pi^2), about 0.9943, not 1. */
  lemma LanczosHalfSum(sin: real -> real)
    requires SineAtSixths(sin)
    ensures WeightSum(FilterOf(LanczosKernel(3, sin)), 0.5, 3) == 736.0 / (75.0 * Pi * Pi)
    ensures 0.99 < WeightSum(FilterOf(LanczosKernel(3, sin)), 0.5, 3) < 1.0
    ensures !UnitSums(FilterOf(LanczosKernel(3, sin)))
  {
    var f := FilterOf(LanczosKernel(3, sin));
    LanczosHalfGrid(sin);
    assert WeightSum(f, 0.5, -4) == 0.0;
    assert WeightSum(f, 0.5, -3) == 0.0;
    assert WeightSum(f, 0.5, -2) == 6.0 / (25.0 * Pi * Pi);
    assert WeightSum(f, 0.5, -1) == 6.0 / (25.0 * Pi * Pi) - 4.0 / (3.0 * Pi * Pi);
    assert WeightSum(f, 0.5, 0) == 6.0 / (25.0 * Pi * Pi) - 4.0 / (3.0 * Pi * Pi) + 6.0 / (Pi * Pi);
    assert WeightSum(f, 0.5, 1) == 6.0 / (25.0 * Pi * Pi) - 4.0 / (3.0 * Pi * Pi) + 12.0 / (Pi * Pi);
    assert WeightSum(f, 0.5, 2) == 6.0 / (25.0 * Pi * Pi) - 8.0 / (3.0 * Pi * Pi) + 12.0 / (Pi * Pi);
  }
}

=== FILE: pixels.dfy ===
/** Pixel buffers: rectangular grids of 8-bit RGB triples, the only data the
    resampling routines read and build. */
module Pixels {

  /** One 8-bit colour channel value. */
  type Byte = v: int | 0 <= v < 256

  /** An RGB triple with independent channels; there is no alpha. */
  datatype Pixel = Pixel(red: Byte, green: Byte, blue: Byte)

  /** The three channels, which every routine treats independently. */
  datatype Channel = Red | Green | Blue

  function ChannelOf(p: Pixel, c: Channel): Byte
  {
    match c
    case Red => p.red
    case Green => p.green
    case Blue => p.blue
  }

  /** An image of `width` x `height` pixels stored row by row, `rows[y][x]`. */
  datatype Image = Image(width: nat, height: nat, rows: seq<seq<Pixel>>) {

    /** The rows really form a `width` x `height` rectangle. */
    predicate Valid()
    {
      |rows| == height && forall y | 0 <= y < |rows| :: |rows[y]| == width
    }

    /** The pixel in column `x` of row `y`. */
    function At(x: int, y: int): Pixel
      requires Valid()
      requires InBounds(width, height, x, y)
    {
      rows[y][x]
    }
  }

  /** Column `x`, row `y` lies inside a `width` x `height` image. */
  predicate InBounds(width: int, height: int, x: int, y: int)
  {
    0 <= x < width && 0 <= y < height
  }

  /** Every pixel of `img` is `p`. */
  ghost predicate Flat(img: Image, p: Pixel)
    requires img.Valid()
  {
    forall x, y | InBounds(img.width, img.height, x, y) :: img.At(x, y) == p
  }
}

=== FILE: resampler.dfy ===
/** The shared 2x convolution driver of the Mitchell-Netravali, B-spline and
    Lanczos routines: for each output pixel, a square of taps around its
    source position, each in-bounds tap weighted by the product of two 1-D
    kernel weights, summed per channel, then truncated and clamped. */
module Resampler {
  import opened Pixels
  import opened Sampling
  import opened Kernels

  /** The 2-D weight of tap (dx, dy): the product of the kernel at the
      horizontal and at the vertical distance from the sample position. */
  function TapWeight(f: Filter, sx: Sample, sy: Sample, dx: int, dy: int): real
  {
    f.weight(dx as real - sx.offset) * f.weight(dy as real - sy.offset)
  }

  /** The contribution of tap (dx, dy) to channel `c` of the output pixel
      whose source position is (sx, sy). A tap outside the image is skipped
      and contributes nothing. */
  function Tap(img: Image, f: Filter, c: Channel, sx: Sample, sy: Sample, dx: int, dy: int): real
    requires img.Valid()
  {
    var px := sx.base + dx;
    var py := sy.base + dy;
    if InBounds(img.width, img.height, px, py) then
      TapWeight(f, sx, sy, dx, dy) * ChannelOf(img.At(px, py), c) as real
    else 0.0
  }

  /** Sum of the taps dx = -f.radius .. hi of row dy, in the order the
      driver adds them. */
  function RowSum(img: Image, f: Filter, c: Channel, sx: Sample, sy: Sample, dy: int, hi: int): real
    requires img.Valid()
    decreases hi + f.radius
  {
    if hi < -f.radius then 0.0
    else RowSum(img, f, c, sx, sy, dy, hi - 1) + Tap(img, f, c, sx, sy, hi, dy)
  }

  /** Sum of the whole rows dy = -f.radius .. hi of the window. */
  function WindowSum(img: Image, f: Filter, c: Channel, sx: Sample, sy: Sample, hi: int): real
    requires img.Valid()
    decreases hi + f.radius
  {
    if hi < -f.radius then 0.0
    else WindowSum(img, f, c, sx, sy, hi - 1) + RowSum(img, f, c, sx, sy, hi, f.radius)
  }

  /** With no pixels every tap of a row is skipped. */
  lemma {:induction false} EmptyRow(img: Image, f: Filter, c: Channel, sx: Sample, sy: Sample, dy: int, hi: int)
    requires img.Valid()
    ensures img.width == 0 || img.height == 0 ==> RowSum(img, f, c, sx, sy, dy, hi) == 0.0
    decreases hi + f.radius
  {
    if hi >= -f.radius {
      EmptyRow(img, f, c, sx, sy, dy, hi - 1);
    }
  }

  /** With no pixels every row of the window adds nothing. */
  lemma {:induction false} EmptyWindow(img: Image, f: Filter, c: Channel, sx: Sample, sy: Sample, hi: int)
    requires img.Valid()
    ensures img.width == 0 || img.height == 0 ==> WindowSum(img, f, c, sx, sy, hi) == 0.0
    decreases hi + f.radius
  {
    if hi >= -f.radius {
      EmptyWindow(img, f, c, sx, sy, hi - 1);
      EmptyRow(img, f, c, sx, sy, hi, f.radius);
    }
  }

  /** The accumulated (unclamped) value of channel `c` of output pixel
      (x, y). A negative radius makes the tap loops empty, and an image
      without pixels makes every tap a skipped one; either way the sum stays
      at its initial 0. The driver never asks for the latter, since an image
      without pixels has no output pixels. */
  function Accumulate(img: Image, f: Filter, c: Channel, x: nat, y: nat): (r: real)
    requires img.Valid()
    ensures f.radius < 0 ==> r == 0.0
    ensures img.width == 0 || img.height == 0 ==> r == 0.0
  {
    EmptyWindow(img, f, c, SampleAt(x), SampleAt(y), f.radius);
    WindowSum(img, f, c, SampleAt(x), SampleAt(y), f.radius)
  }

  /** Output pixel (x, y): each channel is stored on its own, as the byte
      the truncate-and-clamp makes of that channel's sum. */
  function OutPixel(img: Image, f: Filter, x: nat, y: nat): (p: Pixel)
    requires img.Valid()
    ensures forall c :: 0.0 <= Accumulate(img, f, c, x, y) < 256.0 ==> ChannelOf(p, c) == Accumulate(img, f, c, x, y).Floor
    ensures forall c :: Accumulate(img, f, c, x, y) < 1.0 ==> ChannelOf(p, c) == 0
    ensures forall c :: 255.0 <= Accumulate(img, f, c, x, y) ==> ChannelOf(p, c) == 255
  {
    Pixel(Store(Accumulate(img, f, Red, x, y)),
          Store(Accumulate(img, f, Green, x, y)),
          Store(Accumulate(img, f, Blue, x, y)))
  }

  /** Row y of the magnified image. */
  function ResampleRow(img: Image, f: Filter, y: nat): (row: seq<Pixel>)
    requires img.Valid()
    ensures |row| == 2 * img.width
  {
    seq(2 * img.width, x requires 0 <= x => OutPixel(img, f, x, y))
  }

  /** The 2x magnification of `img` through filter `f`. */
  function Resample(img: Image, f: Filter): (r: Image)
    requires img.Valid()
    ensures r.Valid()
    ensures r.width == 2 * img.width && r.height == 2 * img.height
  {
    Image(2 * img.width, 2 * img.height, seq(2 * img.height, y requires 0 <= y => ResampleRow(img, f, y)))
  }

  /** The per-pixel tap loop: walks the window row by row and adds the
      weighted channels of every in-bounds tap. */
  method AccumulatePixel(img: Image, f: Filter, x: nat, y: nat) returns (r: real, g: real, b: real)
    requires img.Valid()
    ensures r == Accumulate(img, f, Red, x, y)
    ensures g == Accumulate(img, f, Green, x, y)
    ensures b == Accumulate(img, f, Blue, x, y)
  {
    var sx := SampleAt(x);
    var sy := SampleAt(y);
    var radius := f.radius;
    r, g, b := 0.0, 0.0, 0.0;
    var dy := -radius;
    while dy <= radius
      invariant -radius <= dy && (dy <= radius + 1 || dy == -radius)
      invariant r == WindowSum(img, f, Red, sx, sy, dy - 1)
      invariant g == WindowSum(img, f, Green, sx, sy, dy - 1)
      invariant b == WindowSum(img, f, Blue, sx, sy, dy - 1)
      decreases radius - dy
    {
      r, g, b := AccumulateRow(img, f, sx, sy, dy, r, g, b);
      dy := dy + 1;
    }
  }

  /** One row dy of the tap loop, added onto the running sums. */
  method AccumulateRow(img: Image, f: Filter, sx: Sample, sy: Sample, dy: int, r0: real, g0: real, b0: real)
    returns (r: real, g: real, b: real)
    requires img.Valid()
    ensures r == r0 + RowSum(img, f, Red, sx, sy, dy, f.radius)
    ensures g == g0 + RowSum(img, f, Green, sx, sy, dy, f.radius)
    ensures b == b0 + RowSum(img, f, Blue, sx, sy, dy, f.radius)
  {
    var radius := f.radius;
    r, g, b := r0, g0, b0;
    var dx := -radius;
    while dx <= radius
      invariant -radius <= dx && (dx <= radius + 1 || dx == -radius)
      invariant r == r0 + RowSum(img, f, Red, sx, sy, dy, dx - 1)
      invariant g == g0 + RowSum(img, f, Green, sx, sy, dy, dx - 1)
      invariant b == b0 + RowSum(img, f, Blue, sx, sy, dy, dx - 1)
      decreases radius - dx
    {
      r, g, b := AddTap(img, f, sx, sy, dx, dy, r, g, b);
      dx := dx + 1;
    }
  }

  /** One tap: skipped when it falls outside the image, otherwise its
      weighted channels are added onto the running sums. */
  method AddTap(img: Image, f: Filter, sx: Sample, sy: Sample, dx: int, dy: int, r0: real, g0: real, b0: real)
    returns (r: real, g: real, b: real)
    requires img.Valid()
    ensures r == r0 + Tap(img, f, Red, sx, sy, dx, dy)
    ensures g == g0 + Tap(img, f, Green, sx, sy, dx, dy)
    ensures b == b0 + Tap(img, f, Blue, sx, sy, dx, dy)
  {
    r, g, b := r0, g0, b0;
    var px := sx.base + dx;
    var py := sy.base + dy;
    if InBounds(img.width, img.height, px, py) {
      var weight := TapWeight(f, sx, sy, dx, dy);
      var p := img.At(px, py);
      r := r + weight * ChannelOf(p, Red) as real;
      g := g + weight * ChannelOf(p, Green) as real;
      b := b + weight * ChannelOf(p, Blue) as real;
    }
  }

  /** The driver: builds the 2W x 2H output row by row, computing and
      storing every output pixel once. */
  method Convolve2x(img: Image, f: Filter) returns (out: Image)
    requires img.Valid()
    ensures out.width == 2 * img.width && out.height == 2 * img.height
    ensures out == Resample(img, f)
  {
    var rows: seq<seq<Pixel>> := [];
    var y := 0;
    while y < 2 * img.height
      invariant 0 <= y <= 2 * img.height
      invariant |rows| == y
      invariant forall j | 0 <= j < y :: rows[j] == ResampleRow(img, f, j)
    {
      var row: seq<Pixel> := [];
      var x := 0;
      while x < 2 * img.width
        invariant 0 <= x <= 2 * img.width
        invariant |row| == x
        invariant forall i | 0 <= i < x :: row[i] == OutPixel(img, f, i, y)
      {
        var r, g, b := AccumulatePixel(img, f, x, y);
        row := row + [Pixel(Store(r), Store(g), Store(b))];
        x := x + 1;
      }
      assert row == ResampleRow(img, f, y);
      rows := rows + [row];
      y := y + 1;
    }
    out := Image(2 * img.width, 2 * img.height, rows);
    assert rows == Resample(img, f).rows;
  }
}

=== FILE: resampler_lemmas.dfy ===
/** What the convolution driver guarantees: under the cubics flat regions
    stay flat away from the border, while Lanczos, whose weights at offset
    1/2 do not sum to one, dims them at odd columns and rows even there;
    the B-spline never leaves [0, 255] before clamping, the border is not
    renormalised, Mitchell-Netravali can undershoot, and the Lanczos kernel
    as written is evaluated at its singular point. */
module ResamplerLemmas {
  import opened Pixels
  import opened Sampling
  import opened Kernels
  import opened Resampler

  lemma ScaleBelow(t: real, w: real, v: real, m: real)
    requires t == w * v
    requires 0.0 <= w && 0.0 <= v <= m
    ensures 0.0 <= t <= w * m
  {
  }

  /** Adding one more weighted term to a scaled weight sum:
      k S + w k = k (S + w). */
  lemma AddScaled(total: real, prev: real, term: real, k: real, s: real, w: real, s': real)
    requires total == prev + term
    requires prev == k * s
    requires term == w * k
    requires s' == s + w
    ensures total == k * s'
  {
  }

  lemma Regroup(x: real, y: real, z: real)
    ensures (x * y) * z == x * (z * y)
  {
  }

  // ---------------------------------------------------------------------------
  // Flat images

  /** The weight the driver really applies along one axis of `n` pixels to
      tap d of sample `s`: the kernel weight when the tap lands on the
      image, 0 when it is skipped. */
  function KeptWeight(f: Filter, s: Sample, n: int, d: int): real
  {
    if 0 <= s.base + d < n then f.weight(d as real - s.offset) else 0.0
  }

  /** Sum of the kept weights of taps -f.radius .. hi. */
  function KeptSum(f: Filter, s: Sample, n: int, hi: int): real
    decreases hi + f.radius
  {
    if hi < -f.radius then 0.0 else KeptSum(f, s, n, hi - 1) + KeptWeight(f, s, n, hi)
  }

  /** No tap of the window that falls off the axis has a non-zero weight,
      so skipping those taps loses nothing. */
  ghost predicate Covered(f: Filter, s: Sample, n: int)
  {
    forall d | -f.radius <= d <= f.radius :: KeptWeight(f, s, n, d) == f.weight(d as real - s.offset)
  }

  /** The kept weights of taps -f.radius .. hi, each scaled by k. */
  function ScaledKeptSum(f: Filter, s: Sample, n: int, hi: int, k: real): real
    decreases hi + f.radius
  {
    if hi < -f.radius then 0.0 else ScaledKeptSum(f, s, n, hi - 1, k) + KeptWeight(f, s, n, hi) * k
  }

  /** Scaling each kept weight by k scales their sum by k. */
  lemma {:induction false} ScaledKept(f: Filter, s: Sample, n: int, hi: int, k: real)
    ensures ScaledKeptSum(f, s, n, hi, k) == k * KeptSum(f, s, n, hi)
    decreases hi + f.radius
  {
    if hi >= -f.radius {
      ScaledKept(f, s, n, hi - 1, k);
      AddScaled(ScaledKeptSum(f, s, n, hi, k), ScaledKeptSum(f, s, n, hi - 1, k), KeptWeight(f, s, n, hi) * k,
                k, KeptSum(f, s, n, hi - 1), KeptWeight(f, s, n, hi), KeptSum(f, s, n, hi));
    }
  }

  /** A tap on a flat image in a row that lies on the image is its kept
      horizontal weight scaled by k, the pixel's channel value times the
      tap's vertical weight; a skipped tap has kept weight 0. */
  lemma FlatTap(img: Image, f: Filter, c: Channel, p: Pixel, sx: Sample, sy: Sample, dx: int, dy: int, k: real)
    requires img.Valid() && Flat(img, p)
    requires 0 <= sy.base + dy < img.height
    requires k == ChannelOf(p, c) as real * f.weight(dy as real - sy.offset)
    ensures Tap(img, f, c, sx, sy, dx, dy) == KeptWeight(f, sx, img.width, dx) * k
  {
  }

  /** On a flat image, a row that lies on the image sums to its kept
      horizontal weights scaled by k, the pixel's channel value times the
      row's vertical weight. */
  lemma {:induction false} RowSumFlat(img: Image, f: Filter, c: Channel, p: Pixel, sx: Sample, sy: Sample, dy: int, hi: int, k: real)
    requires img.Valid() && Flat(img, p)
    requires 0 <= sy.base + dy < img.height
    requires k == ChannelOf(p, c) as real * f.weight(dy as real - sy.offset)
    ensures RowSum(img, f, c, sx, sy, dy, hi) == ScaledKeptSum(f, sx, img.width, hi, k)
    decreases hi + f.radius
  {
    if hi >= -f.radius {
      RowSumFlat(img, f, c, p, sx, sy, dy, hi - 1, k);
      FlatTap(img, f, c, p, sx, sy, hi, dy, k);
    }
  }

  /** On a flat image a whole row of taps is its kept vertical weight scaled
      by k, the pixel's channel value times the kept horizontal weight sum;
      a row off the image adds nothing. */
  lemma FlatRow(img: Image, f: Filter, c: Channel, p: Pixel, sx: Sample, sy: Sample, dy: int, k: real)
    requires img.Valid() && Flat(img, p)
    requires k == ChannelOf(p, c) as real * KeptSum(f, sx, img.width, f.radius)
    ensures RowSum(img, f, c, sx, sy, dy, f.radius) == KeptWeight(f, sy, img.height, dy) * k
  {
    if 0 <= sy.base + dy < img.height {
      FlatRowInside(img, f, c, p, sx, sy, dy);
    } else {
      RowSumOutside(img, f, c, sx, sy, dy, f.radius);
    }
  }

  /** A whole row of taps on a flat image, the row lying on the image. */
  lemma FlatRowInside(img: Image, f: Filter, c: Channel, p: Pixel, sx: Sample, sy: Sample, dy: int)
    requires img.Valid() && Flat(img, p)
    requires 0 <= sy.base + dy < img.height
    ensures RowSum(img, f, c, sx, sy, dy, f.radius)
         == f.weight(dy as real - sy.offset) * (ChannelOf(p, c) as real * KeptSum(f, sx, img.width, f.radius))
  {
    var v, wy := ChannelOf(p, c) as real, f.weight(dy as real - sy.offset);
    RowSumFlat(img, f, c, p, sx, sy, dy, f.radius, v * wy);
    ScaledKept(f, sx, img.width, f.radius, v * wy);
    Regroup(v, wy, KeptSum(f, sx, img.width, f.radius));
  }

  /** A window each of whose rows adds its kept vertical weight times k sums
      to the scaled kept vertical weights. */
  lemma {:induction false} WindowSumRows(img: Image, f: Filter, c: Channel, sx: Sample, sy: Sample, hi: int, k: real)
    requires img.Valid()
    requires hi <= f.radius
    requires forall dy {:trigger RowSum(img, f, c, sx, sy, dy, f.radius)} | -f.radius <= dy <= f.radius ::
      RowSum(img, f, c, sx, sy, dy, f.radius) == KeptWeight(f, sy, img.height, dy) * k
    ensures WindowSum(img, f, c, sx, sy, hi) == ScaledKeptSum(f, sy, img.height, hi, k)
    decreases hi + f.radius
  {
    if hi >= -f.radius {
      WindowSumRows(img, f, c, sx, sy, hi - 1, k);
    }
  }

  /** A window each of whose rows adds its kept vertical weight times
      k = v kx sums to v kx times the kept vertical weight sum. */
  lemma WindowOfRows(img: Image, f: Filter, c: Channel, sx: Sample, sy: Sample, v: real, kx: real, k: real)
    requires img.Valid()
    requires k == v * kx
    requires forall dy {:trigger RowSum(img, f, c, sx, sy, dy, f.radius)} | -f.radius <= dy <= f.radius ::
      RowSum(img, f, c, sx, sy, dy, f.radius) == KeptWeight(f, sy, img.height, dy) * k
    ensures WindowSum(img, f, c, sx, sy, f.radius) == v * kx * KeptSum(f, sy, img.height, f.radius)
  {
    WindowSumRows(img, f, c, sx, sy, f.radius, k);
    ScaledKept(f, sy, img.height, f.radius, k);
    Times(v, kx, k, KeptSum(f, sy, img.height, f.radius));
  }

  /** Every row of the window of a flat image is its kept vertical weight
      scaled by k. */
  lemma FlatRows(img: Image, f: Filter, c: Channel, p: Pixel, sx: Sample, sy: Sample, k: real)
    requires img.Valid() && Flat(img, p)
    requires k == ChannelOf(p, c) as real * KeptSum(f, sx, img.width, f.radius)
    ensures forall dy {:trigger RowSum(img, f, c, sx, sy, dy, f.radius)} | -f.radius <= dy <= f.radius ::
      RowSum(img, f, c, sx, sy, dy, f.radius) == KeptWeight(f, sy, img.height, dy) * k
  {
    forall dy | -f.radius <= dy <= f.radius
      ensures RowSum(img, f, c, sx, sy, dy, f.radius) == KeptWeight(f, sy, img.height, dy) * k
    {
      FlatRow(img, f, c, p, sx, sy, dy, k);
    }
  }

  /** The whole window of a flat image is the pixel's channel value times
      the kept horizontal and the kept vertical weight sums. */
  lemma FlatWindow(img: Image, f: Filter, p: Pixel, c: Channel, sx: Sample, sy: Sample)
    requires img.Valid() && Flat(img, p)
    ensures WindowSum(img, f, c, sx, sy, f.radius)
         == ChannelOf(p, c) as real * KeptSum(f, sx, img.width, f.radius) * KeptSum(f, sy, img.height, f.radius)
  {
    var v, kx := ChannelOf(p, c) as real, KeptSum(f, sx, img.width, f.radius);
    var k := v * kx;
    FlatRows(img, f, c, p, sx, sy, k);
    WindowOfRows(img, f, c, sx, sy, v, kx, k);
  }

  lemma Times(a: real, b: real, k: real, t: real)
    requires k == a * b
    ensures k * t == a * b * t
  {
  }

  /** Every output pixel of a flat image, border included: each channel sum
      is the pixel's value times the kept horizontal and the kept vertical
      weight sums. Nothing renormalises by the weights of skipped taps. */
  lemma FlatSums(img: Image, f: Filter, p: Pixel, c: Channel, x: nat, y: nat)
    requires img.Valid() && Flat(img, p)
    ensures Accumulate(img, f, c, x, y)
         == ChannelOf(p, c) as real * KeptSum(f, SampleAt(x), img.width, f.radius) * KeptSum(f, SampleAt(y), img.height, f.radius)
  {
    FlatWindow(img, f, p, c, SampleAt(x), SampleAt(y));
  }

  /** When no weighted tap is skipped, the kept weights are all the
      weights. */
  lemma {:induction false} CoveredSum(f: Filter, s: Sample, n: int, hi: int)
    requires Covered(f, s, n) && hi <= f.radius
    ensures KeptSum(f, s, n, hi) == WeightSum(f, s.offset, hi)
    decreases hi + f.radius
  {
    if hi >= -f.radius {
      CoveredSum(f, s, n, hi - 1);
      assert KeptWeight(f, s, n, hi) == f.weight(hi as real - s.offset);
    }
  }

  /** Each channel sum of an output pixel of a flat image that skips no
      weighted tap is the channel value times the full horizontal and the
      full vertical weight sums, whatever those add up to. */
  lemma CoveredFlat(img: Image, f: Filter, p: Pixel, c: Channel, x: nat, y: nat)
    requires img.Valid() && Flat(img, p)
    requires Covered(f, SampleAt(x), img.width) && Covered(f, SampleAt(y), img.height)
    ensures Accumulate(img, f, c, x, y)
         == ChannelOf(p, c) as real * WeightSum(f, SampleAt(x).offset, f.radius) * WeightSum(f, SampleAt(y).offset, f.radius)
  {
    CoveredSum(f, SampleAt(x), img.width, f.radius);
    CoveredSum(f, SampleAt(y), img.height, f.radius);
    FlatSums(img, f, p, c, x, y);
  }

  /** Replaces the two factors of a product by values equal to them. */
  lemma SameFactors(a: real, v: real, p: real, q: real, p': real, q': real)
    requires a == v * p * q && p == p' && q == q'
    ensures a == v * p' * q'
  {
  }

  /** With weights summing to one, every channel sum of an output pixel of
      a flat image that skips no weighted tap is the image's channel
      value. */
  lemma FlatInteriorSums(img: Image, f: Filter, p: Pixel, x: nat, y: nat)
    requires img.Valid() && Flat(img, p)
    requires UnitSums(f)
    requires Covered(f, SampleAt(x), img.width) && Covered(f, SampleAt(y), img.height)
    ensures forall c :: Accumulate(img, f, c, x, y) == ChannelOf(p, c) as real
  {
    forall c
      ensures Accumulate(img, f, c, x, y) == ChannelOf(p, c) as real
    {
      CoveredFlat(img, f, p, c, x, y);
    }
  }

  /** Flat stays flat: with weights summing to one, an output pixel of a
      flat image that skips no weighted tap (in particular one whose whole
      window lies on the image) has exactly the image's colour. */
  lemma FlatInterior(img: Image, f: Filter, p: Pixel, x: nat, y: nat)
    requires img.Valid() && Flat(img, p)
    requires UnitSums(f)
    requires Covered(f, SampleAt(x), img.width) && Covered(f, SampleAt(y), img.height)
    ensures OutPixel(img, f, x, y) == p
  {
    FlatInteriorSums(img, f, p, x, y);
    StoreKeepsBytes(p.red);
    StoreKeepsBytes(p.green);
    StoreKeepsBytes(p.blue);
    assert Accumulate(img, f, Red, x, y) == ChannelOf(p, Red) as real;
    assert Accumulate(img, f, Green, x, y) == ChannelOf(p, Green) as real;
    assert Accumulate(img, f, Blue, x, y) == ChannelOf(p, Blue) as real;
  }

  /** A cubic kernel skips no weighted tap of a sample at least one pixel
      from the low end of the axis and three from the high end, or two from
      the high end at offset 0: the only taps that can fall off are dx = -2
      at base 1, at distance 2 or 5/2, and dx = 2 at base n - 2 and offset
      0, at distance 2. */
  lemma CubicCovered(k: Kernel, s: Sample, n: int)
    requires Cubic(k)
    requires s.offset == 0.0 || s.offset == 0.5
    requires 1 <= s.base
    requires s.base + 2 < n || (s.offset == 0.0 && s.base + 1 < n)
    ensures Covered(FilterOf(k), s, n)
  {
    var f := FilterOf(k);
    forall d | -f.radius <= d <= f.radius
      ensures KeptWeight(f, s, n, d) == f.weight(d as real - s.offset)
    {
      if !(0 <= s.base + d < n) {
        assert Abs(d as real - s.offset) >= 2.0;
      }
    }
  }

  /** For Mitchell-Netravali (any B, C) and the B-spline, every output
      pixel of a flat image whose base index is at least one pixel from the
      left and top and three from the right and bottom border (two at an
      even coordinate) keeps the image's colour exactly. */
  lemma FlatInteriorCubic(img: Image, k: Kernel, p: Pixel, x: nat, y: nat)
    requires img.Valid() && Flat(img, p)
    requires Cubic(k)
    requires 1 <= x / 2 && (x / 2 + 2 < img.width || (x % 2 == 0 && x / 2 + 1 < img.width))
    requires 1 <= y / 2 && (y / 2 + 2 < img.height || (y % 2 == 0 && y / 2 + 1 < img.height))
    ensures OutPixel(img, FilterOf(k), x, y) == p
  {
    PartitionOfUnity(k);
    CubicCovered(k, SampleAt(x), img.width);
    CubicCovered(k, SampleAt(y), img.height);
    FlatInterior(img, FilterOf(k), p, x, y);
  }

  /** The kept horizontal weights of output column 3 of a 3-pixel-wide
      image under a radius-2 filter: taps -2 and 2 fall off, so only the
      weights at -3/2, -1/2 and 1/2 remain. */
  lemma RightEdgeKept(f: Filter)
    requires f.radius == 2
    ensures KeptSum(f, SampleAt(3), 3, 2) == f.weight(-1.5) + f.weight(-0.5) + f.weight(0.5)
  {
    var s := SampleAt(3);
    assert s == Sample(1, 0.5);
    assert KeptSum(f, s, 3, -2) == 0.0;
    assert KeptSum(f, s, 3, -1) == f.weight(-1.5);
    assert KeptSum(f, s, 3, 0) == f.weight(-1.5) + f.weight(-0.5);
    assert KeptSum(f, s, 3, 1) == f.weight(-1.5) + f.weight(-0.5) + f.weight(0.5);
  }

  /** With the default B = C = 1/3 the kept horizontal weights of that
      column are -5/144, 77/144 and 77/144: the dropped tap at 3/2 had
      weight -5/144, so what is kept adds up to more than one. */
  lemma MitchellRightEdge()
    ensures KeptSum(FilterOf(MitchellKernel(DefaultB, DefaultC)), SampleAt(3), 3, 2) == 149.0 / 144.0
  {
    var f := FilterOf(MitchellKernel(DefaultB, DefaultC));
    RightEdgeKept(f);
    MitchellHalfGrid(DefaultB, DefaultC);
    assert f.weight(-1.5) == -5.0 / 144.0;
    assert f.weight(-0.5) == 77.0 / 144.0;
    assert f.weight(0.5) == 77.0 / 144.0;
  }

  /** Output row 4 of a 5-pixel-high image skips no weighted Mitchell tap,
      so its kept vertical weights add up to one. */
  lemma MitchellBottomRow()
    ensures KeptSum(FilterOf(MitchellKernel(DefaultB, DefaultC)), SampleAt(4), 5, 2) == 1.0
  {
    MitchellUnity(DefaultB, DefaultC);
    CubicCovered(MitchellKernel(DefaultB, DefaultC), SampleAt(4), 5);
    CoveredSum(FilterOf(MitchellKernel(DefaultB, DefaultC)), SampleAt(4), 5, 2);
  }

  /** Skipping a tap of negative weight brightens the border: with the
      default B = C = 1/3, every channel sum of a flat 3x5 image of grey 144
      at output (3, 4) is 149, since its tap dx = 2 (weight -5/144) falls
      off the right edge and the kept weights sum to 149/144. */
  lemma MitchellBorderSums(img: Image)
    requires img.Valid() && img.width == 3 && img.height == 5 && Flat(img, Grey(144))
    ensures forall c :: Accumulate(img, FilterOf(MitchellKernel(DefaultB, DefaultC)), c, 3, 4) == 149.0
  {
    MitchellRightEdge();
    MitchellBottomRow();
    forall c
      ensures Accumulate(img, FilterOf(MitchellKernel(DefaultB, DefaultC)), c, 3, 4) == 149.0
    {
      FlatSums(img, FilterOf(MitchellKernel(DefaultB, DefaultC)), Grey(144), c, 3, 4);
    }
  }

  /** The stored output pixel: the flat grey 144 becomes grey 149 at the
      border. */
  lemma MitchellBrightensBorder(img: Image)
    requires img.Valid() && img.width == 3 && img.height == 5 && Flat(img, Grey(144))
    ensures OutPixel(img, FilterOf(MitchellKernel(DefaultB, DefaultC)), 3, 4) == Grey(149)
  {
    MitchellBorderSums(img);
    StoreKeepsBytes(149);
  }

  // ---------------------------------------------------------------------------
  // Only the window is read

  /** `a` and `b` have the same size and the same pixels in the square of
      radius `r` around source pixel (cx, cy). */
  ghost predicate AgreeAround(a: Image, b: Image, cx: int, cy: int, r: int)
    requires a.Valid() && b.Valid()
  {
    a.width == b.width && a.height == b.height &&
    forall px, py | InBounds(a.width, a.height, px, py) && cx - r <= px <= cx + r && cy - r <= py <= cy + r ::
      a.At(px, py) == b.At(px, py)
  }

  /** A row of the window reads only pixels inside the window. */
  lemma {:induction false} RowSumLocal(a: Image, b: Image, f: Filter, c: Channel, sx: Sample, sy: Sample, dy: int, hi: int)
    requires a.Valid() && b.Valid() && AgreeAround(a, b, sx.base, sy.base, f.radius)
    requires -f.radius <= dy <= f.radius && hi <= f.radius
    ensures RowSum(a, f, c, sx, sy, dy, hi) == RowSum(b, f, c, sx, sy, dy, hi)
    decreases hi + f.radius
  {
    if hi >= -f.radius {
      RowSumLocal(a, b, f, c, sx, sy, dy, hi - 1);
      if InBounds(a.width, a.height, sx.base + hi, sy.base + dy) {
        assert a.At(sx.base + hi, sy.base + dy) == b.At(sx.base + hi, sy.base + dy);
      }
    }
  }

  /** The rows of the window read only pixels inside the window. */
  lemma {:induction false} WindowSumLocal(a: Image, b: Image, f: Filter, c: Channel, sx: Sample, sy: Sample, hi: int)
    requires a.Valid() && b.Valid() && AgreeAround(a, b, sx.base, sy.base, f.radius)
    requires hi <= f.radius
    ensures WindowSum(a, f, c, sx, sy, hi) == WindowSum(b, f, c, sx, sy, hi)
    decreases hi + f.radius
  {
    if hi >= -f.radius {
      WindowSumLocal(a, b, f, c, sx, sy, hi - 1);
      RowSumLocal(a, b, f, c, sx, sy, hi, f.radius);
    }
  }

  /** Output pixel (x, y) depends only on the source pixels within the
      radius of (x / 2, y / 2): two images of the same size that agree there
      give it the same channel sums and the same stored colour, whatever
      they hold elsewhere. */
  lemma AccumulateLocal(a: Image, b: Image, f: Filter, x: nat, y: nat)
    requires a.Valid() && b.Valid() && AgreeAround(a, b, x / 2, y / 2, f.radius)
    ensures forall c :: Accumulate(a, f, c, x, y) == Accumulate(b, f, c, x, y)
    ensures OutPixel(a, f, x, y) == OutPixel(b, f, x, y)
  {
    forall c
      ensures Accumulate(a, f, c, x, y) == Accumulate(b, f, c, x, y)
    {
      WindowSumLocal(a, b, f, c, SampleAt(x), SampleAt(y), f.radius);
    }
  }

  // ---------------------------------------------------------------------------
  // Non-negative kernels never over- or undershoot

  /** Every weight of the filter is non-negative. */
  ghost predicate NonNegative(f: Filter)
  {
    forall x :: 0.0 <= f.weight(x)
  }

  /** With non-negative weights a tap adds between 0 and 255 times its
      weight, the product of its horizontal and vertical weights. */
  lemma TapBound(img: Image, f: Filter, c: Channel, sx: Sample, sy: Sample, dx: int, dy: int)
    requires img.Valid() && NonNegative(f)
    ensures 0.0 <= Tap(img, f, c, sx, sy, dx, dy)
    ensures Tap(img, f, c, sx, sy, dx, dy) <= f.weight(dx as real - sx.offset) * (255.0 * f.weight(dy as real - sy.offset))
  {
    var wx, wy := f.weight(dx as real - sx.offset), f.weight(dy as real - sy.offset);
    MulNonNegative(wx, wy);
    MulNonNegative(wx, 255.0 * wy);
    Regroup(wx, wy, 255.0);
    if InBounds(img.width, img.height, sx.base + dx, sy.base + dy) {
      var v := ChannelOf(img.At(sx.base + dx, sy.base + dy), c) as real;
      assert Tap(img, f, c, sx, sy, dx, dy) == (wx * wy) * v;
      ScaleBelow(Tap(img, f, c, sx, sy, dx, dy), wx * wy, v, 255.0);
    } else {
      assert Tap(img, f, c, sx, sy, dx, dy) == 0.0;
    }
  }

  /** Adding one more bounded term to a bounded scaled weight sum. */
  lemma AddScaledBelow(total: real, prev: real, term: real, k: real, s: real, w: real, s': real)
    requires total == prev + term
    requires 0.0 <= prev <= k * s
    requires 0.0 <= term <= w * k
    requires s' == s + w
    ensures 0.0 <= total <= k * s'
  {
  }

  lemma ScaleZero(k: real, s: real)
    requires s == 0.0
    ensures k * s == 0.0
  {
  }

  /** With non-negative weights a row sum lies between 0 and 255 times the
      row's vertical weight times the horizontal weights seen so far. */
  lemma {:induction false} RowSumBound(img: Image, f: Filter, c: Channel, sx: Sample, sy: Sample, dy: int, hi: int)
    requires img.Valid() && NonNegative(f)
    ensures 0.0 <= RowSum(img, f, c, sx, sy, dy, hi)
    ensures RowSum(img, f, c, sx, sy, dy, hi) <= (255.0 * f.weight(dy as real - sy.offset)) * WeightSum(f, sx.offset, hi)
    decreases hi + f.radius
  {
    var k := 255.0 * f.weight(dy as real - sy.offset);
    if hi >= -f.radius {
      RowSumBound(img, f, c, sx, sy, dy, hi - 1);
      TapBound(img, f, c, sx, sy, hi, dy);
      AddScaledBelow(RowSum(img, f, c, sx, sy, dy, hi), RowSum(img, f, c, sx, sy, dy, hi - 1), Tap(img, f, c, sx, sy, hi, dy),
                     k, WeightSum(f, sx.offset, hi - 1), f.weight(hi as real - sx.offset), WeightSum(f, sx.offset, hi));
    } else {
      ScaleZero(k, WeightSum(f, sx.offset, hi));
    }
  }

  /** With non-negative weights a full row lies between 0 and its vertical
      weight times 255 times the horizontal weight sum. */
  lemma RowBound(img: Image, f: Filter, c: Channel, sx: Sample, sy: Sample, dy: int)
    requires img.Valid() && NonNegative(f)
    ensures 0.0 <= RowSum(img, f, c, sx, sy, dy, f.radius)
    ensures RowSum(img, f, c, sx, sy, dy, f.radius) <= f.weight(dy as real - sy.offset) * (255.0 * WeightSum(f, sx.offset, f.radius))
  {
    RowSumBound(img, f, c, sx, sy, dy, f.radius);
    Regroup(f.weight(dy as real - sy.offset), 255.0, WeightSum(f, sx.offset, f.radius));
    Regroup(255.0, f.weight(dy as real - sy.offset), WeightSum(f, sx.offset, f.radius));
  }

  /** With non-negative weights a window sum lies between 0 and 255 times
      the product of the horizontal and vertical weight sums. */
  lemma {:induction false} WindowSumBound(img: Image, f: Filter, c: Channel, sx: Sample, sy: Sample, hi: int)
    requires img.Valid() && NonNegative(f)
    ensures 0.0 <= WindowSum(img, f, c, sx, sy, hi)
    ensures WindowSum(img, f, c, sx, sy, hi) <= (255.0 * WeightSum(f, sx.offset, f.radius)) * WeightSum(f, sy.offset, hi)
    decreases hi + f.radius
  {
    if hi >= -f.radius {
      WindowSumBound(img, f, c, sx, sy, hi - 1);
      WindowStepBound(img, f, c, sx, sy, hi);
    } else {
      ScaleZero(255.0 * WeightSum(f, sx.offset, f.radius), WeightSum(f, sy.offset, hi));
    }
  }

  /** One more row keeps a bounded window sum bounded. */
  lemma WindowStepBound(img: Image, f: Filter, c: Channel, sx: Sample, sy: Sample, hi: int)
    requires img.Valid() && NonNegative(f)
    requires hi >= -f.radius
    requires 0.0 <= WindowSum(img, f, c, sx, sy, hi - 1)
    requires WindowSum(img, f, c, sx, sy, hi - 1) <= (255.0 * WeightSum(f, sx.offset, f.radius)) * WeightSum(f, sy.offset, hi - 1)
    ensures 0.0 <= WindowSum(img, f, c, sx, sy, hi)
    ensures WindowSum(img, f, c, sx, sy, hi) <= (255.0 * WeightSum(f, sx.offset, f.radius)) * WeightSum(f, sy.offset, hi)
  {
    RowBound(img, f, c, sx, sy, hi);
    assert WindowSum(img, f, c, sx, sy, hi) == WindowSum(img, f, c, sx, sy, hi - 1) + RowSum(img, f, c, sx, sy, hi, f.radius);
    assert WeightSum(f, sy.offset, hi) == WeightSum(f, sy.offset, hi - 1) + f.weight(hi as real - sy.offset);
    AddScaledBelow(WindowSum(img, f, c, sx, sy, hi), WindowSum(img, f, c, sx, sy, hi - 1), RowSum(img, f, c, sx, sy, hi, f.radius),
                   255.0 * WeightSum(f, sx.offset, f.radius), WeightSum(f, sy.offset, hi - 1), f.weight(hi as real - sy.offset),
                   WeightSum(f, sy.offset, hi));
  }

  /** For any image, a filter with non-negative weights summing to one keeps
      every accumulated channel in [0, 255] before clamping, even where
      border taps are dropped. */
  lemma NoOvershoot(img: Image, f: Filter, c: Channel, x: nat, y: nat)
    requires img.Valid() && NonNegative(f) && UnitSums(f)
    ensures 0.0 <= Accumulate(img, f, c, x, y) <= 255.0
  {
    WindowSumBound(img, f, c, SampleAt(x), SampleAt(y), f.radius);
  }

  /** The B-spline never leaves [0, 255]: the clamp never takes effect and
      the stored byte is the truncated sum. */
  lemma BSplineInRange(img: Image, c: Channel, x: nat, y: nat)
    requires img.Valid()
    ensures 0.0 <= Accumulate(img, FilterOf(BSplineKernel), c, x, y) <= 255.0
    ensures Store(Accumulate(img, FilterOf(BSplineKernel), c, x, y)) == Accumulate(img, FilterOf(BSplineKernel), c, x, y).Floor
  {
    BSplineUnity();
    BSplineNonNegative();
    NoOvershoot(img, FilterOf(BSplineKernel), c, x, y);
  }

  /** The B-spline filter has no negative weight. */
  lemma BSplineNonNegative()
    ensures NonNegative(FilterOf(BSplineKernel))
  {
    var f := FilterOf(BSplineKernel);
    forall t ensures 0.0 <= f.weight(t) {
      assert f.weight(t) == BSpline(t);
    }
  }

  // ---------------------------------------------------------------------------
  // The border is not renormalised

  /** In a 1x1 image only the tap at the single pixel's column can be read. */
  lemma {:induction false} RowSumSinglePixel(img: Image, f: Filter, c: Channel, sx: Sample, sy: Sample, dy: int, hi: int)
    requires img.Valid() && img.width == 1 && img.height == 1
    requires 0 <= f.radius && sx.base == 0
    requires hi <= f.radius
    ensures RowSum(img, f, c, sx, sy, dy, hi) == if 0 <= hi then Tap(img, f, c, sx, sy, 0, dy) else 0.0
    decreases hi + f.radius
  {
    if hi >= -f.radius {
      RowSumSinglePixel(img, f, c, sx, sy, dy, hi - 1);
    }
  }

  /** In a 1x1 image only the tap on the single pixel contributes. */
  lemma {:induction false} WindowSumSinglePixel(img: Image, f: Filter, c: Channel, sx: Sample, sy: Sample, hi: int)
    requires img.Valid() && img.width == 1 && img.height == 1
    requires 0 <= f.radius && sx.base == 0 && sy.base == 0
    requires hi <= f.radius
    ensures WindowSum(img, f, c, sx, sy, hi) == if 0 <= hi then Tap(img, f, c, sx, sy, 0, 0) else 0.0
    decreases hi + f.radius
  {
    if hi >= -f.radius {
      WindowSumSinglePixel(img, f, c, sx, sy, hi - 1);
      RowSumSinglePixel(img, f, c, sx, sy, hi, f.radius);
    }
  }

  /** A 1x1 image is magnified without any division: each of the four
      output pixels is the single pixel weighted by the two kernel weights
      of its one readable tap, with no renormalisation by the sum of the
      weights. */
  lemma SinglePixel(img: Image, f: Filter, c: Channel, x: nat, y: nat)
    requires img.Valid() && img.width == 1 && img.height == 1
    requires 0 <= f.radius
    requires x < 2 && y < 2
    ensures Accumulate(img, f, c, x, y)
         == f.weight(-SampleAt(x).offset) * f.weight(-SampleAt(y).offset) * ChannelOf(img.At(0, 0), c) as real
  {
    var sx, sy := SampleAt(x), SampleAt(y);
    WindowSumSinglePixel(img, f, c, sx, sy, f.radius);
    assert 0 as real - sx.offset == -sx.offset;
    assert 0 as real - sy.offset == -sy.offset;
  }

  function Grey(v: Byte): Pixel
  {
    Pixel(v, v, v)
  }

  /** Output pixel (x, y) of a grey 1x1 image whose one tap has weights
      wx and wy. */
  lemma SinglePixelGrey(img: Image, f: Filter, x: nat, y: nat, g: Byte, wx: real, wy: real)
    requires img.Valid() && img.width == 1 && img.height == 1 && img.At(0, 0) == Grey(g)
    requires 0 <= f.radius
    requires x < 2 && y < 2
    requires f.weight(-SampleAt(x).offset) == wx && f.weight(-SampleAt(y).offset) == wy
    ensures OutPixel(img, f, x, y) == Grey(Store(wx * wy * g as real))
  {
    SinglePixel(img, f, Red, x, y);
    SinglePixel(img, f, Green, x, y);
    SinglePixel(img, f, Blue, x, y);
    assert Accumulate(img, f, Red, x, y) == wx * wy * g as real;
    assert Accumulate(img, f, Green, x, y) == wx * wy * g as real;
    assert Accumulate(img, f, Blue, x, y) == wx * wy * g as real;
  }

  /** The magnification of a 1x1 image is its four output pixels. */
  lemma FourPixels(img: Image, f: Filter)
    requires img.Valid() && img.width == 1 && img.height == 1
    ensures Resample(img, f)
         == Image(2, 2, [[OutPixel(img, f, 0, 0), OutPixel(img, f, 1, 0)], [OutPixel(img, f, 0, 1), OutPixel(img, f, 1, 1)]])
  {
    assert ResampleRow(img, f, 0) == [OutPixel(img, f, 0, 0), OutPixel(img, f, 1, 0)];
    assert ResampleRow(img, f, 1) == [OutPixel(img, f, 0, 1), OutPixel(img, f, 1, 1)];
  }

  /** The four output pixels of a grey 1x1 image, through any filter whose
      weight is `near` at distance 0 and `half` at distance 1/2: each is the
      grey level scaled by the product of its two weights, with nothing
      dividing by the weights that fell outside the image. */
  lemma GreyPixel(img: Image, f: Filter, g: Byte, near: real, half: real)
    requires img.Valid() && img.width == 1 && img.height == 1 && img.At(0, 0) == Grey(g)
    requires 0 <= f.radius
    requires f.weight(0.0) == near && f.weight(-0.5) == half
    ensures OutPixel(img, f, 0, 0) == Grey(Store(near * near * g as real))
    ensures OutPixel(img, f, 1, 0) == Grey(Store(half * near * g as real))
    ensures OutPixel(img, f, 0, 1) == Grey(Store(near * half * g as real))
    ensures OutPixel(img, f, 1, 1) == Grey(Store(half * half * g as real))
  {
    assert -SampleAt(0).offset == 0.0;
    assert -SampleAt(1).offset == -0.5;
    SinglePixelGrey(img, f, 0, 0, g, near, near);
    SinglePixelGrey(img, f, 1, 0, g, half, near);
    SinglePixelGrey(img, f, 0, 1, g, near, half);
    SinglePixelGrey(img, f, 1, 1, g, half, half);
  }

  /** A white 1x1 image through the B-spline: because the border taps are
      dropped and not compensated for, the 2x2 result is darker than the
      source, 113 at the source pixel's own position down to 58 diagonally
      off it. */
  lemma BSplineSinglePixelDarkens(img: Image)
    requires img.Valid() && img.width == 1 && img.height == 1 && img.At(0, 0) == Grey(255)
    ensures Resample(img, FilterOf(BSplineKernel))
         == Image(2, 2, [[Grey(113), Grey(81)], [Grey(81), Grey(58)]])
  {
    var f := FilterOf(BSplineKernel);
    assert f.weight(0.0) == 2.0 / 3.0 && f.weight(-0.5) == 23.0 / 48.0 by {
      BSplineHalfGrid();
    }
    WhiteThroughBSplineWeights(img, f);
  }

  /** The same for any filter with the B-spline's weights at 0 and 1/2. */
  lemma WhiteThroughBSplineWeights(img: Image, f: Filter)
    requires img.Valid() && img.width == 1 && img.height == 1 && img.At(0, 0) == Grey(255)
    requires 0 <= f.radius
    requires f.weight(0.0) == 2.0 / 3.0 && f.weight(-0.5) == 23.0 / 48.0
    ensures Resample(img, f) == Image(2, 2, [[Grey(113), Grey(81)], [Grey(81), Grey(58)]])
  {
    GreyPixel(img, f, 255, 2.0 / 3.0, 23.0 / 48.0);
    BSplineWhiteLevels();
    FourPixels(img, f);
  }

  /** The stored levels of white scaled by the B-spline's weights at 0 and 1/2. */
  lemma BSplineWhiteLevels()
    ensures Store(2.0 / 3.0 * (2.0 / 3.0) * 255.0) == 113
    ensures Store(23.0 / 48.0 * (2.0 / 3.0) * 255.0) == 81
    ensures Store(2.0 / 3.0 * (23.0 / 48.0) * 255.0) == 81
    ensures Store(23.0 / 48.0 * (23.0 / 48.0) * 255.0) == 58
  {
  }

  // ---------------------------------------------------------------------------
  // Mitchell-Netravali undershoots

  /** A row of taps that lies outside the image adds nothing. */
  lemma {:induction false} RowSumOutside(img: Image, f: Filter, c: Channel, sx: Sample, sy: Sample, dy: int, hi: int)
    requires img.Valid()
    requires !(0 <= sy.base + dy < img.height)
    ensures RowSum(img, f, c, sx, sy, dy, hi) == 0.0
    decreases hi + f.radius
  {
    if hi >= -f.radius {
      RowSumOutside(img, f, c, sx, sy, dy, hi - 1);
    }
  }

  /** The row white, black, black: every source pixel the driver reads for
      output pixel (3, 0) is black except the white one one step to the
      left, so through any filter of radius 2 each channel sum is that one
      tap, k(-3/2) k(0) 255. */
  lemma WhiteThenBlack(img: Image, f: Filter, c: Channel)
    requires img.Valid() && img.width == 3 && img.height == 1
    requires img.At(0, 0) == Grey(255) && img.At(1, 0) == Grey(0) && img.At(2, 0) == Grey(0)
    requires f.radius == 2
    ensures Accumulate(img, f, c, 3, 0) == f.weight(-1.5) * f.weight(0.0) * 255.0
  {
    var sx, sy := SampleAt(3), SampleAt(0);
    assert sx == Sample(1, 0.5) && sy == Sample(0, 0.0);
    var v := f.weight(-1.5) * f.weight(0.0) * 255.0;
    assert Tap(img, f, c, sx, sy, -1, 0) == v by {
      assert -1 as real - sx.offset == -1.5;
      assert 0 as real - sy.offset == 0.0;
    }
    RowSumOutside(img, f, c, sx, sy, -2, 2);
    RowSumOutside(img, f, c, sx, sy, -1, 2);
    RowSumOutside(img, f, c, sx, sy, 1, 2);
    RowSumOutside(img, f, c, sx, sy, 2, 2);
    assert RowSum(img, f, c, sx, sy, 0, -3) == 0.0;
    assert RowSum(img, f, c, sx, sy, 0, -2) == 0.0;
    assert RowSum(img, f, c, sx, sy, 0, -1) == v;
    assert RowSum(img, f, c, sx, sy, 0, 0) == v;
    assert RowSum(img, f, c, sx, sy, 0, 1) == v;
    assert RowSum(img, f, c, sx, sy, 0, 2) == v;
    assert WindowSum(img, f, c, sx, sy, -3) == 0.0;
    assert WindowSum(img, f, c, sx, sy, -2) == 0.0;
    assert WindowSum(img, f, c, sx, sy, -1) == 0.0;
    assert WindowSum(img, f, c, sx, sy, 0) == v;
    assert WindowSum(img, f, c, sx, sy, 1) == v;
  }

  /** With the default B = C = 1/3, the negative lobe of the Mitchell-
      Netravali kernel drives the sum below zero next to a bright pixel:
      in the row white, black, black, every channel of output pixel (3, 0)
      accumulates -5/144 * 8/9 * 255 < 0, which only the clamp turns into a
      stored 0. */
  lemma MitchellUndershoots(img: Image)
    requires img.Valid() && img.width == 3 && img.height == 1
    requires img.At(0, 0) == Grey(255) && img.At(1, 0) == Grey(0) && img.At(2, 0) == Grey(0)
    ensures forall c :: Accumulate(img, FilterOf(MitchellKernel(DefaultB, DefaultC)), c, 3, 0) < 0.0
    ensures OutPixel(img, FilterOf(MitchellKernel(DefaultB, DefaultC)), 3, 0) == Grey(0)
  {
    var f := FilterOf(MitchellKernel(DefaultB, DefaultC));
    assert f.weight(-1.5) == -5.0 / 144.0 && f.weight(0.0) == 8.0 / 9.0 by {
      MitchellHalfGrid(DefaultB, DefaultC);
    }
    forall c
      ensures Accumulate(img, f, c, 3, 0) < 0.0
    {
      WhiteThenBlack(img, f, c);
    }
    assert Accumulate(img, f, Red, 3, 0) < 0.0;
    assert Accumulate(img, f, Green, 3, 0) < 0.0;
    assert Accumulate(img, f, Blue, 3, 0) < 0.0;
  }

  // ---------------------------------------------------------------------------
  // The Lanczos kernel as written is evaluated at 0

  /** Tap (dx, dy) of output pixel (x, y) lies in the window of `f` and on a
      source pixel, so the driver evaluates the kernel for it. */
  predicate TapReads(img: Image, f: Filter, x: nat, y: nat, dx: int, dy: int)
  {
    && -f.radius <= dx <= f.radius
    && -f.radius <= dy <= f.radius
    && InBounds(img.width, img.height, SampleAt(x).base + dx, SampleAt(y).base + dy)
  }

  /** For output pixel (x, y), the driver evaluates the kernel at distance
      t: as the horizontal or vertical distance of a tap it reads. */
  ghost predicate EvaluatesAt(img: Image, f: Filter, x: nat, y: nat, t: real)
  {
    exists dx: int, dy: int ::
      TapReads(img, f, x, y, dx, dy) && (t == dx as real - SampleAt(x).offset || t == dy as real - SampleAt(y).offset)
  }

  /** Every output pixel with an even column or an even row has its
      centre tap (sx = ix, sy = iy) on a source pixel at horizontal or
      vertical distance 0, where the Lanczos kernel as written divides 0 by
      0; exactly the pixels with odd column and odd row avoid it. So for
      any non-empty image and window radius a >= 1 the routine as written
      evaluates 0 / 0, starting at output pixel (0, 0). */
  lemma LanczosAsWrittenDividesByZero(img: Image, a: int, sin: real -> real, x: nat, y: nat)
    requires 1 <= a
    requires x < 2 * img.width && y < 2 * img.height
    ensures (forall t :: EvaluatesAt(img, FilterOf(LanczosKernel(a, sin)), x, y, t) ==> LanczosDefined(a, t))
        <==> (x % 2 == 1 && y % 2 == 1)
  {
    var f := FilterOf(LanczosKernel(a, sin));
    if x % 2 == 1 && y % 2 == 1 {
      forall t | EvaluatesAt(img, f, x, y, t)
        ensures LanczosDefined(a, t)
      {
        var dx: int, dy: int :| TapReads(img, f, x, y, dx, dy)
          && (t == dx as real - SampleAt(x).offset || t == dy as real - SampleAt(y).offset);
        assert t == dx as real - 0.5 || t == dy as real - 0.5;
      }
    } else {
      assert TapReads(img, f, x, y, 0, 0);
      assert 0.0 == 0 as real - SampleAt(x).offset || 0.0 == 0 as real - SampleAt(y).offset;
      assert EvaluatesAt(img, f, x, y, 0.0);
      assert !LanczosDefined(a, 0.0);
    }
  }

  /** A 1x1 image keeps its pixel at output (0, 0) under any filter of
      weight 1 at distance 0. */
  lemma UnitCentre(img: Image, f: Filter)
    requires img.Valid() && img.width == 1 && img.height == 1
    requires 0 <= f.radius && f.weight(0.0) == 1.0
    ensures OutPixel(img, f, 0, 0) == img.At(0, 0)
  {
    var p := img.At(0, 0);
    assert -SampleAt(0).offset == 0.0;
    SinglePixel(img, f, Red, 0, 0);
    SinglePixel(img, f, Green, 0, 0);
    SinglePixel(img, f, Blue, 0, 0);
    StoreKeepsBytes(p.red);
    StoreKeepsBytes(p.green);
    StoreKeepsBytes(p.blue);
  }

  /** With the centre case restored, the Lanczos routine reproduces a 1x1
      image exactly at output pixel (0, 0), whose only readable tap lies at
      distance 0 in both directions. */
  lemma LanczosSinglePixelCentre(img: Image, a: int, sin: real -> real)
    requires img.Valid() && img.width == 1 && img.height == 1
    requires 1 <= a
    ensures OutPixel(img, FilterOf(LanczosKernel(a, sin)), 0, 0) == img.At(0, 0)
  {
    var f := FilterOf(LanczosKernel(a, sin));
    assert f.weight(0.0) == 1.0;
    UnitCentre(img, f);
  }

  /** A sample whose whole square of taps lies on the axis skips nothing. */
  lemma InsideCovered(f: Filter, s: Sample, n: int)
    requires 0 <= s.base - f.radius && s.base + f.radius < n
    ensures Covered(f, s, n)
  {
    forall d | -f.radius <= d <= f.radius
      ensures KeptWeight(f, s, n, d) == f.weight(d as real - s.offset)
    {
    }
  }

  /** At an output pixel with odd x and odd y, of a flat image that skips
      no weighted tap there, each channel sum is the channel value times the
      square of the weight sum at offset 1/2. */
  lemma HalfOffsetFlat(img: Image, f: Filter, p: Pixel, c: Channel, x: nat, y: nat)
    requires img.Valid() && Flat(img, p)
    requires x % 2 == 1 && y % 2 == 1
    requires Covered(f, SampleAt(x), img.width) && Covered(f, SampleAt(y), img.height)
    ensures Accumulate(img, f, c, x, y)
         == ChannelOf(p, c) as real * WeightSum(f, 0.5, f.radius) * WeightSum(f, 0.5, f.radius)
  {
    var a := Accumulate(img, f, c, x, y);
    var v := ChannelOf(p, c) as real;
    var kx, ky := WeightSum(f, SampleAt(x).offset, f.radius), WeightSum(f, SampleAt(y).offset, f.radius);
    CoveredFlat(img, f, p, c, x, y);
    SameFactors(a, v, kx, ky, WeightSum(f, 0.5, f.radius), WeightSum(f, 0.5, f.radius));
  }

  /** A value equal to 255 times the square of 736 / (75 pi^2) lies in
      [252, 253). */
  lemma WhiteTimesSquare(a: real, v: real, w: real)
    requires v == 255.0 && w == 736.0 / (75.0 * Pi * Pi)
    requires a == v * w * w
    ensures 252.0 <= a < 253.0
  {
  }

  /** A filter whose weights at offset 1/2 add up to 736 / (75 pi^2) turns
      a flat white image into channel sums in [252, 253) at every output
      pixel with odd x and odd y that skips no weighted tap. */
  lemma WhiteAtHalfOffsets(img: Image, f: Filter, c: Channel, x: nat, y: nat)
    requires img.Valid() && Flat(img, Grey(255))
    requires x % 2 == 1 && y % 2 == 1
    requires Covered(f, SampleAt(x), img.width) && Covered(f, SampleAt(y), img.height)
    requires WeightSum(f, 0.5, f.radius) == 736.0 / (75.0 * Pi * Pi)
    ensures 252.0 <= Accumulate(img, f, c, x, y) < 253.0
  {
    HalfOffsetFlat(img, f, Grey(255), c, x, y);
    WhiteTimesSquare(Accumulate(img, f, c, x, y), ChannelOf(Grey(255), c) as real, WeightSum(f, 0.5, f.radius));
  }

  /** With a = 3, every channel sum of a flat white image at an output pixel
      with odd x and odd y whose whole window lies on the image is 255 times
      the square of 736 / (75 pi^2), in [252, 253): no tap is skipped, yet
      the seven weights at offset 1/2 add up to about 0.9943. */
  lemma LanczosWhiteSums(img: Image, sin: real -> real, c: Channel, x: nat, y: nat)
    requires SineAtSixths(sin)
    requires img.Valid() && Flat(img, Grey(255))
    requires x % 2 == 1 && 3 <= x / 2 && x / 2 + 3 < img.width
    requires y % 2 == 1 && 3 <= y / 2 && y / 2 + 3 < img.height
    ensures Covered(FilterOf(LanczosKernel(3, sin)), SampleAt(x), img.width)
    ensures Covered(FilterOf(LanczosKernel(3, sin)), SampleAt(y), img.height)
    ensures 252.0 <= Accumulate(img, FilterOf(LanczosKernel(3, sin)), c, x, y) < 253.0
  {
    var f := FilterOf(LanczosKernel(3, sin));
    InsideCovered(f, SampleAt(x), img.width);
    InsideCovered(f, SampleAt(y), img.height);
    LanczosHalfSum(sin);
    WhiteAtHalfOffsets(img, f, c, x, y);
  }

  /** Lanczos does not keep a flat image flat even where no tap is skipped:
      with a = 3, a flat white image comes out as grey 252 at every output
      pixel with odd x and odd y whose whole window lies on the image. */
  lemma LanczosDimsWhite(img: Image, sin: real -> real, x: nat, y: nat)
    requires SineAtSixths(sin)
    requires img.Valid() && Flat(img, Grey(255))
    requires x % 2 == 1 && 3 <= x / 2 && x / 2 + 3 < img.width
    requires y % 2 == 1 && 3 <= y / 2 && y / 2 + 3 < img.height
    ensures OutPixel(img, FilterOf(LanczosKernel(3, sin)), x, y) == Grey(252)
  {
    LanczosWhiteSums(img, sin, Red, x, y);
    LanczosWhiteSums(img, sin, Green, x, y);
    LanczosWhiteSums(img, sin, Blue, x, y);
  }
}

=== FILE: sampling.dfy ===
/** How an output pixel index is mapped back onto the source grid, and how an
    accumulated channel value is turned into a stored byte. */
module Sampling {
  import opened Pixels

  /** Conversion of a real to `int` as C++'s `static_cast<int>` does it:
      truncation toward zero. */
  function Trunc(v: real): (r: int)
    ensures 0.0 <= v ==> r as real <= v < r as real + 1.0
    ensures v <= 0.0 ==> r as real - 1.0 < v <= r as real
  {
    if v >= 0.0 then v.Floor else -((-v).Floor)
  }

  /** `std::clamp(v, lo, hi)` on integers. */
  function Clamp(v: int, lo: int, hi: int): (r: int)
    requires lo <= hi
    ensures lo <= r <= hi
    ensures lo <= v <= hi ==> r == v
    ensures v < lo ==> r == lo
    ensures hi < v ==> r == hi
  {
    if v < lo then lo else if hi < v then hi else v
  }

  /** A source coordinate split into an integer base index and the
      fractional offset from it. */
  datatype Sample = Sample(base: int, offset: real)

  /** The source position of output index `x` in a 2x magnification:
      `x / 2.0`, cut into its `static_cast<int>` part and the rest. */
  function SampleAt(x: nat): (s: Sample)
    ensures s.base == x / 2
    ensures s.offset == if x % 2 == 0 then 0.0 else 0.5
    ensures s.base as real + s.offset == x as real / 2.0
  {
    var src := x as real / 2.0;
    var i := Trunc(src);
    HalfFloor(x);
    Sample(i, src - i as real)
  }

  /** For a natural number, the floor of half of it is its integer half. */
  lemma HalfFloor(x: nat)
    ensures (x as real / 2.0).Floor == x / 2
  {
  }

  /** The base index of every output column (row) of a 2x magnification
      is a column (row) of the source. */
  lemma SampleInSource(x: nat, w: nat)
    requires x < 2 * w
    ensures 0 <= SampleAt(x).base < w
  {
  }

  /** The byte stored for an accumulated channel value: converted to `int`,
      then clamped into [0, 255]. */
  function Store(v: real): (r: Byte)
    ensures 0.0 <= v < 256.0 ==> r == v.Floor
    ensures v < 1.0 ==> r == 0
    ensures v >= 255.0 ==> r == 255
  {
    Clamp(Trunc(v), 0, 255)
  }

  /** Truncation and flooring differ only on negative non-integers, and both
      clamp those to 0: storing behaves as clamp(floor v). */
  lemma StoreIsClampFloor(v: real)
    ensures Store(v) == Clamp(v.Floor, 0, 255)
  {
  }

  /** A value that is already a byte is stored unchanged. */
  lemma StoreKeepsBytes(b: Byte)
    ensures Store(b as real) == b
  {
  }

  /** Storing preserves the order of accumulated values. */
  lemma StoreMonotone(u: real, v: real)
    requires u <= v
    ensures Store(u) <= Store(v)
  {
  }
}
